=== FILE: README.md ===
# Diet analysis dashboard — a Dafny model

The system is a small diet-analysis dashboard with two parts.

- **Backend.** An Azure Function `AnalyzeNutrition` reads a recipe dataset (CSV in blob storage), filters it by diet type and returns, as JSON:
  - the record count;
  - the per-diet macronutrient means;
  - the recipe count per diet type;
  - a sample of at most 100 protein/carbs points.

  A second function, `health_check`, always answers that the service is healthy.
- **Frontend.** A page controller (`app.js`) fetches those insights for the selected diet. It writes the metadata fields and hands the three parts of the response to the chart layer (`charts.js`). The chart layer keeps one Chart.js instance per chart type: the bar, scatter and pie charts.

This project models three pieces of that logic as pure Dafny functions and proves what each promises.

- **The request handler.** `Handler` builds on `Frames`, `Analysis` and `Text`.
  - A request, plus an environment, maps to an HTTP response. The environment holds the storage setting, the parsed frame or the exception reading it raised, and the random draw behind `df.sample`.
  - Frames hold header names and positional rows of optional cells; `None` is pandas' NaN.
  - The model covers filter resolution, header stripping, the case-insensitive diet filter, the 404 path and the macro-column fallback.
  - It also covers `value_counts`, the per-diet mean groups, the scatter sample and the mapping of every exception to a 500 response.
- **The dashboard controller.** In `Dashboard`, one load of the dashboard is the ordered list of effects it performs:
  - the fetch;
  - the metadata writes;
  - the chart renders;
  - the closing notice or alert.

  The list is built from the page's elements and the parsed response. `ReloadFilter` says which filter each trigger (startup, filter change, refresh click, Ctrl/Cmd+R, online) reloads with. `ApplyEffects` performs a list of effects on the chart state.
- **The chart-handle lifecycle.** In `Charts`, the state holds three optional handles and the charting library's live instances. It also holds the next instance id and the history of create/destroy calls.
  - The invariant `Valid` says the handles and the live set agree, so there is never more than one live chart per kind.
  - The create functions and `destroyAllCharts` preserve it.
  - The configurations passed to the library are modelled down to labels, series order, `|| []` defaults and colours.

`EndToEnd` connects the three: it covers what the fetch wrapper (`fetchNutritionalInsights`) returns for each status and body, and what the dashboard does with each kind of response the handler can produce.

The following become parameters of the model:

| Source behaviour | Model parameter |
|---|---|
| Blob download and CSV parsing | the `Environment.dataset` input |
| `os.environ` | `Environment.storage` |
| `df.sample` | the draw `Environment.draw`: candidate row positions |
| The fetch | its parsed outcome, an `Option<JsValue>` |
| The health check | a boolean in the `Startup` trigger |
| The DOM | the `Page` record of which elements exist and the selector's value |

## Model

| member | source | states |
|---|---|---|
| Handler.ResolveFilter | backend/function_app.py:21-27 | A non-empty `dietType` query parameter wins. Otherwise the body's `dietType` value is used, whatever its JSON type. `'all'` is used when the body is not JSON, not an object, or lacks the key. |
| Handler.Select | backend/function_app.py:21-61 | A successful selection holds a well-formed frame. Its filter string is the resolved filter. Filtering raises, in this order, on a missing Diet_type column, on `.str` over a column with rows but no text, and on a filter that is not a string. |
| Handler.Analyse | backend/function_app.py:75-153 | A successful analysis is a 200 response carrying the insights payload. |
| Handler.AnalyzeNutrition | backend/function_app.py:19-170 | The status is always 200, 404 or 500. It is 200 exactly when the payload is the insights object. `success` is true exactly on 200. |
| Handler.HealthCheck | backend/function_app.py:173-187 | Whatever the request: status 200, status text `healthy`, no `success` key, and only the allow-origin header. |
| Handler.OkCase | backend/function_app.py:63-153 | A 200 response is the analysis of a selection that read fine and kept at least one row. |
| Handler.NotFoundWhenNothingLeft | backend/function_app.py:63-72 | The status is 404 exactly when the selection succeeded but left no rows. The 404 then carries `success: false` and `No data found for diet type: <filter>`, with no other field and no header. A Diet_type column with rows but no text gives a 500, not a 404. |
| Handler.ExceptionsBecomeServerErrors | backend/function_app.py:155-170 | The status is 500 exactly when processing raised. The 500 carries the exception text, the fixed message and the allow-origin header. |
| Handler.MissingStorageFails | backend/function_app.py:32-34 | A missing or empty storage setting gives the 500 with `AzureWebJobsStorage connection string not found`, whatever the request and data. |
| Handler.NonStringFilterFails | backend/function_app.py:59-60 | A body filter that is not a string gives a 500 once the data has a Diet_type column. It fails at `.str` when that column is not text, and otherwise at `.lower()` with an error naming the filter's Python type. |
| Handler.NoTextDietFails | backend/function_app.py:59-60 | Any filter but `'all'`, over a Diet_type column with rows but no text value, gives the 500 `Can only use .str accessor with string values!`. |
| Handler.NumericDietExample | backend/function_app.py:59-60 | `vegan` over a dataset whose one Diet_type value is a number gives that 500. |
| Handler.SelectionFiltersByDiet | backend/function_app.py:58-61 | Exactly `'all'` keeps the stripped frame unchanged. Any other filter keeps the columns and a sub-multiset of the rows, containing every row whose Diet_type equals the filter up to ASCII case and no other. |
| Handler.WithMacrosKeepsDiet | backend/function_app.py:77-89 | The macro fallback keeps the row count, and neither adds, removes nor changes the Diet_type column. |
| Handler.CountsDescribeSelection | backend/function_app.py:95-136 | `recordCount` is the number of selected rows, and is positive. The distribution is a faithful count of their Diet_type cells: distinct labels, each with its positive multiplicity, and counts summing to the non-NaN cells. The macronutrient groups are the same set of diet types. |
| Handler.CountsSumToRecordCount | backend/function_app.py:124-135 | When every row of the dataset has a diet type, the recipe counts add up to `recordCount`. |
| Handler.FilteredCountsSumToRecordCount | backend/function_app.py:59-60 | Under any filter but `'all'`, every selected row matched and so has a diet type; the recipe counts add up to `recordCount` whatever the rest of the dataset holds. |
| Handler.DistributionMatchesFilter | backend/function_app.py:59-60 | Under any filter but `'all'`, every diet type in the distribution is text equal to the filter ignoring ASCII case. |
| Handler.CountedTypesMatch | backend/function_app.py:134 | When every row matches the filter, every label of a faithful count of the Diet_type column matches it too. |
| Handler.ScatterIsBoundedSample | backend/function_app.py:98-119 | `scatterData` has at most min(100, recordCount) points. It is empty, with no correlation, unless both `Protein(g)` and `Carbs(g)` are available. With both, `correlations` holds exactly the `protein_carbs` coefficient. |
| Handler.MacroListsFollowColumns | backend/function_app.py:127-132 | Each macronutrient list is empty when its canonical column is unavailable. Otherwise it holds, for each diet type in `dietTypes` and in the same order, the mean of that column; so it is empty too when no selected row has a diet type. |
| Handler.NoDietTypeExample | backend/function_app.py:92-139 | A 200 for `all` over a recipe with a NaN diet type lists no diet types and an empty protein list, although `Protein(g)` is available. |
| Handler.CorrelationNeedsSpread | backend/function_app.py:115-119 | With both columns available, the one coefficient is a number exactly when the protein values and the carbs values each vary over the rows that have both. Otherwise it is NaN. |
| Handler.SingleRecipeCorrelationIsNaN | backend/function_app.py:115-119 | A 200 for a single recipe, with both columns available, carries a NaN coefficient, so its body is not strict JSON. |
| Handler.ExampleSelection | backend/function_app.py:21-61 | A GET without a filter, on a dataset whose headers carry no whitespace, selects the whole frame under `all`. |
| Handler.OneRecipeExample | backend/function_app.py:19-153 | That request on a one-recipe dataset gets a 200 response. The response echoes `all`, has record count 1 and a distribution of one diet type with count 1, and no scatter points (there is no carbs column). Its body holds no NaN. |
| Handler.OneCompleteRecipeExample | backend/function_app.py:115-153 | A one-recipe dataset with protein, carbs and diet type gets a 200 for `all` whose `protein_carbs` coefficient is NaN. |
| Frames.FilterDiet | backend/function_app.py:60 | Columns are unchanged. The kept rows form a sub-multiset of the input; each matches the filter; every matching row keeps its full multiplicity. |
| Frames.KeepDiet | backend/function_app.py:60 | For the rows of a column index: kept rows are a sub-multiset, all match, and no matching row is lost. |
| Frames.CopyColumn | backend/function_app.py:84-88 | `df[name] = df[col]` keeps every existing header in place. Any header it adds is the canonical name. |
| Frames.CopyColumnEffect | backend/function_app.py:84-88 | After `df[name] = df[col]`, column `name` holds a copy of column `col`. Every other column, by name and by position, is unchanged, and headers stay distinct. |
| Frames.CopyIfNamed | backend/function_app.py:83-88 | One keyword test keeps existing headers in place and can only append the canonical name. |
| Frames.HeaderTests | backend/function_app.py:83-88 | The three tests of one loop iteration keep the existing headers as a prefix. |
| Frames.FallbackFrom | backend/function_app.py:82-88 | The loop over the original headers keeps rows aligned and the existing headers as a prefix. |
| Frames.LastMatchFound | backend/function_app.py:82-88 | A header is found exactly when some original header contains the keyword. The one found is the last such header. |
| Frames.FallbackFromInv | backend/function_app.py:82-88 | The loop invariant holds to the end: the original columns are untouched and each canonical column present copies the last matching header seen so far. |
| Frames.ColumnFallbackSpec | backend/function_app.py:80-89 | With no canonical macro column, each canonical column exists afterwards exactly when some original header contains its keyword ignoring case, and copies the LAST such header. One header may feed several canonical columns. Original columns keep names, places and cells; only canonical names are added. |
| Analysis.TallyCounts | backend/function_app.py:95 | `value_counts` is a faithful count: distinct labels, exactly the non-NaN values, each with its positive multiplicity, summing to the non-NaN rows. |
| Analysis.BumpCounts | backend/function_app.py:95 | Counting one more value keeps the count faithful. |
| Analysis.AnyNumberFor | backend/function_app.py:92 | The scan finds a row of the given diet with a number in the column exactly when one exists. |
| Analysis.MeanOf | backend/function_app.py:92 | A group's mean is NaN exactly when no row of that diet has a number in the column, since `mean()` skips NaN. |
| Analysis.Means | backend/function_app.py:92 | A macro's means list is empty without its column. Otherwise there is one entry per diet type, naming that diet and that column. The entry is NaN exactly when no row of the diet has a number in the column. |
| Analysis.FirstComplete | backend/function_app.py:117-119 | It finds the first row with numbers in both columns, or reports that there is none. |
| Analysis.DiffersFrom | backend/function_app.py:117-119 | It holds exactly when some row with both numbers differs from the given value in the column. |
| Analysis.SpreadVaries | backend/function_app.py:117-119 | Comparing every complete row with the first complete row finds a difference exactly when some two complete rows differ. |
| Analysis.Correlation | backend/function_app.py:115-119 | Pearson's coefficient over the rows with both values is a number exactly when each column takes two different values among those rows. Otherwise it is NaN. |
| Analysis.OneRowCorrelationIsNaN | backend/function_app.py:115-119 | On a frame of at most one row the coefficient is NaN. |
| Analysis.DrawFrom | backend/function_app.py:101-102 | The sample is distinct positions, all in range, and at most min(100, rows) of them. |
| Analysis.DrawKeepsValidSample | backend/function_app.py:101-102 | A draw that already is a valid sample of the right size is taken as it stands. |
| Analysis.PresentRows | backend/function_app.py:111 | The rows the `pd.notna` guard keeps: they are sampled rows with both values, every such sampled row is among them, and they are distinct when the sample is. |
| Analysis.PointsOf | backend/function_app.py:104-112 | It raises exactly when a sampled row has a text protein or carbs value. Otherwise there are as many points as sampled rows with both values present, and each point is the protein, carbs and `Recipe_name` (or `Unknown` without that column) of some sampled row. |
| Analysis.PointsFollowSample | backend/function_app.py:104-112 | The q-th point is the point of the q-th sampled row with both values present: one point per such row, in sample order. |
| Analysis.EveryPresentRowPlotted | backend/function_app.py:104-112 | Every sampled row with both values present yields a point. |
| Analysis.ScatterDataSpec | backend/function_app.py:98-112 | No points unless both columns exist, and at most min(100, rows). The sample is distinct positions. The points correspond one to one, in order, to the sampled rows with both values present, so every such row is plotted and no other. |
| Text.Strip | backend/function_app.py:56 | The stripped header is the input minus its leading and trailing whitespace runs. It neither starts nor ends with whitespace. |
| Text.LowerIdempotent | backend/function_app.py:60 | Lower-casing twice equals lower-casing once, and leaves no ASCII capital. So lower-casing both sides of the diet comparison is a stable normal form. |
| Text.IndexOfFrom | backend/function_app.py:83 | It finds the first occurrence at or after the start, or reports that there is none. |
| Text.ContainsIffOccurs | backend/function_app.py:83 | Python's `in` on strings holds exactly when the pattern occurs at some position. |
| Text.ReplaceFirstAt | frontend/js/charts.js:217 | `replace` substitutes the first occurrence of the pattern and nothing else. |
| Text.NoOccurrenceBefore | frontend/js/charts.js:217 | `0.7` cannot start inside a prefix without a `.`. |
| Charts.InitialValid | frontend/js/charts.js:3-5 | With all three handles null, the state is consistent and no chart is live. |
| Charts.LiveIsHandle | frontend/js/charts.js:3-5 | In a consistent state, the live charts of a kind are exactly the one its handle holds, so at most one. |
| Charts.Release | frontend/js/charts.js:16-18 | Tearing down a handle destroys exactly the instance it held and logs that. It empties that handle only and keeps the state consistent. In a create function the emptied handle is an intermediate state that Install overwrites at line 20; only `destroyAllCharts` leaves handles null. |
| Charts.Install | frontend/js/charts.js:20 | `new Chart` puts a fresh instance in its kind's handle, logs its creation, leaves the other handles alone and keeps the state consistent. |
| Charts.Render | frontend/js/charts.js:11-46 | Without the canvas nothing changes. Otherwise the old instance of that kind is destroyed before the new one is created from the config, the other two handles are untouched, and consistency is kept. |
| Charts.RenderTwiceLeavesOne | frontend/js/charts.js:114-123 | Rendering a kind twice leaves exactly one live chart of it, built from the second config. The first is destroyed, and that is logged before the second is created. |
| Charts.RenderTouchesOneKind | frontend/js/charts.js:197-219 | Rendering one kind leaves the live charts of the other kinds as they were. |
| Charts.DestroyAllCharts | frontend/js/charts.js:266-279 | All three handles become null. Held instances are destroyed in the order bar, scatter, pie. Afterwards no chart is live. |
| Charts.NothingHeldNothingLive | frontend/js/charts.js:266-279 | In a consistent state with every handle null, nothing is live. |
| Charts.DestroyAllIdempotent | frontend/js/charts.js:266-279 | A second teardown destroys nothing and changes nothing. |
| Charts.BarMapping | frontend/js/charts.js:20-46 | The bar labels are `dietTypes` or `[]`. There are exactly three series, Protein (g), Carbs (g) and Fat (g) in that order, bound to `protein`, `carbs` and `fat`, each defaulting to `[]`. |
| Charts.BarExample | frontend/js/charts.js:22-45 | In the vegan/keto example, each diet's values sit at the diet's label position in every series. |
| Charts.ScatterMapping | frontend/js/charts.js:123-134 | The scatter chart has a single `Recipes` dataset: the given points, or `[]` when they are falsy. It has no category labels. |
| Charts.PointTitle | frontend/js/charts.js:148-151 | The tooltip title is the point's label, or `Recipe` when that is falsy, so it is never blank. A null or undefined point throws. |
| Charts.AtAlpha | frontend/js/charts.js:206-215 | The palette has one `rgba` colour per entry at the given opacity. |
| Charts.OpaqueBorder | frontend/js/charts.js:217 | `replace('0.7', '1')` on a 0.7-alpha colour whose components hold no `.` gives the same colour at full opacity. |
| Charts.BordersOfFills | frontend/js/charts.js:206-217 | Mapping that replace over a dotless 0.7 palette gives the same palette at opacity 1. |
| Charts.PieBordersOpaque | frontend/js/charts.js:206-217 | There are eight fill colours, and each slice's border is its fill made opaque. |
| Charts.PieMapping | frontend/js/charts.js:219-228 | The pie labels are `dietTypes` and its data is `recipeCounts`, each defaulting to `[]`. There is one unlabelled dataset with the eight-colour fills and opaque borders. |
| Dashboard.FilterLabel | frontend/js/app.js:82 | A label exists exactly for a string filter. An undefined or null filter throws the TypeError reading `charAt`. |
| Dashboard.FilterLabelText | frontend/js/app.js:82 | `'all'` is labelled `All`. Any other string keeps its length and its tail, and only its first character is upper-cased. |
| Dashboard.FilterLabelExamples | frontend/js/app.js:82 | `vegan` becomes `Vegan`, `''` stays `''`, `All` stays `All`, and a number throws. |
| Dashboard.UpdateMetadata | frontend/js/app.js:66-92 | It throws exactly when the active-filter element exists and the label throws. Only the execution time and record count have been written by then. |
| Dashboard.MetadataDefaults | frontend/js/app.js:68-77 | A falsy or missing execution time shows `--` and a falsy or missing record count shows 0. Otherwise the response's values are shown. The shown execution time is never blank. |
| Dashboard.MetadataWrites | frontend/js/app.js:66-92 | Each field is written exactly when its element exists (execution time and record count even if the label throws). The active filter is written exactly when its label can be computed. The last update is written only when nothing threw. |
| Dashboard.MetadataStaged | frontend/js/app.js:66-92 | The writes happen in the order execution time, record count, active filter, last update. |
| Dashboard.Renders | frontend/js/app.js:42-52 | The renders come in the order bar, scatter, pie, each at most once. |
| Dashboard.RendersContent | frontend/js/app.js:42-52 | Each chart is rendered exactly when its field is truthy, and with that field. |
| Dashboard.LoadIsStaged | frontend/js/app.js:28-60 | Every load runs in a fixed order: fetch, metadata, bar, scatter and pie renders, then exactly one closing notice or alert. No effect repeats. |
| Dashboard.LoadShape | frontend/js/app.js:28-60 | A load takes one of three shapes: rejected, thrown in the metadata, or complete. |
| Dashboard.RejectedOnlyAlerts | frontend/js/app.js:33-36 | A missing response, or one without a truthy `success`, only shows `Failed to load data. Please try again.`: no metadata, chart or success notice. |
| Dashboard.AcceptedRendersPresentCharts | frontend/js/app.js:39-54 | An accepted response whose metadata does not throw renders each chart exactly when its field is truthy (an empty scatter array included). It ends with the success notice and shows no alert. |
| Dashboard.ThrowStopsRendering | frontend/js/app.js:56-59 | A metadata exception keeps the writes done before it. The load ends with `An error occurred while loading data: ` and the message, with no render and no success notice. |
| Dashboard.MissingFilterExample | frontend/js/app.js:82 | A successful response without `filter` writes execution time and record count, then alerts the `charAt` TypeError and renders nothing. |
| Dashboard.CurrentFilter | frontend/js/app.js:113 | It is the selector's value, or `all` when the selector is missing or empty, and is never empty. |
| Dashboard.ReloadFilter | frontend/js/app.js:97-157 | Startup loads `all`. A change reloads with the chosen value verbatim. Click, Ctrl/Cmd+R and online reload the current filter. The key trigger needs Ctrl or Meta with key exactly `r`. The listeners exist only after startup and only for present elements. Offline, resize and unload do not reload. |
| Dashboard.UnhealthyStartupStillLoads | frontend/js/app.js:10-16 | A failed health check only adds the warning before the startup load of `all`, which happens either way. |
| Dashboard.StartupReaction | frontend/js/app.js:10-16 | Startup is the optional health warning followed by the load of `all`. |
| Dashboard.RefreshTriggersAgree | frontend/js/app.js:111-157 | Refresh click, Ctrl+R, Cmd+R and online all reload the current filter. Online first shows the restored notice. |
| Dashboard.ChangeUsesValueVerbatim | frontend/js/app.js:101-105 | A filter change loads the chosen value as is, even the empty string. |
| Dashboard.ApplyEffect | frontend/js/app.js:42-52 | Only renders and the teardown touch the charts. Every effect keeps the chart state consistent. |
| Dashboard.EffectsKeepValid | frontend/js/charts.js:3-5 | Any sequence of effects keeps the handles and live charts consistent. |
| Dashboard.OtherEffectsKeepCharts | frontend/js/app.js:66-92 | Effects other than renders and teardown leave the chart state unchanged. |
| Dashboard.LoadIsCallable | frontend/js/app.js:33-52 | A load only calls the chart functions with arguments they can read. |
| Dashboard.FailedLoadKeepsCharts | frontend/js/app.js:33-59 | A rejected load, or one that throws in the metadata, leaves every chart as it was. |
| Dashboard.OnlyMacrosTouchesBar | frontend/js/app.js:42-52 | A successful load with only `macronutrients` truthy replaces the bar chart (when its canvas exists) with one built from it. The scatter and pie charts are left alone, and consistency is kept. |
| Dashboard.UnloadClearsCharts | frontend/js/app.js:164-167 | Unload performs only the teardown, which leaves no handle set and no live chart. |
| EndToEnd.RequestCarriesFilter | frontend/js/api.js:14 | For a filter the URL carries unchanged, the backend resolves the filter the dashboard sends. An empty filter arrives as absent and becomes `all`. |
| EndToEnd.TriggersSendTheirFilter | frontend/js/app.js:113 | Refresh, Ctrl/Cmd+R and online never send an empty filter, so the backend filters by exactly that filter. |
| EndToEnd.Fetched | frontend/js/api.js:25-41 | The wrapper returns the parsed body exactly for a 2xx status whose body holds no `NaN` token. For any other status, or a body `response.json()` rejects, it returns null. What the dashboard then does is stated by EndToEnd.ErrorResponsesOnlyAlert, EndToEnd.NaNResponsesOnlyAlert and EndToEnd.ParsedInsights. |
| EndToEnd.ErrorResponsesOnlyAlert | frontend/js/app.js:33-36 | A 404 or 500 from the handler makes the dashboard show only the load failure. |
| EndToEnd.NaNResponsesOnlyAlert | frontend/js/api.js:29-41 | A 200 whose insights hold a NaN makes the dashboard show only the load failure, as an error response does. |
| EndToEnd.SingleRecipeNeverShown | frontend/js/app.js:33-36 | A single-recipe selection with both protein and carbs columns is never displayed: its 200 ends in the load-failure alert. |
| EndToEnd.OneCompleteRecipeAlerts | frontend/js/app.js:33-36 | Loading `all` from the one-recipe dataset with both columns shows only the load-failure alert. |
| EndToEnd.OneRecipeLoads | frontend/js/app.js:28-60 | The one-recipe dataset without a carbs column answers without NaN, and its faithful parse loads to the success notice. |
| EndToEnd.ParsedInsights | backend/function_app.py:122-140 | A faithfully parsed 200 body free of NaN is accepted. Its filter is a string, its chart fields are truthy and its record count is positive. |
| EndToEnd.CompleteLoad | frontend/js/app.js:39-54 | An accepted response with a string filter and truthy chart fields writes every present metadata field, renders all three charts and ends with the success notice. |
| EndToEnd.SuccessRendersAllCharts | frontend/js/app.js:28-60 | A 200 from the handler whose body holds no NaN loads completely. The shown record count is the handler's and the label is that of the echoed filter. All three charts render, and the success notice closes the load. |
| EndToEnd.BackendEchoesFilter | backend/function_app.py:126 | A 200 echoes the filter the dashboard asked for, with `all` in place of the empty filter. |
| EndToEnd.EchoedFilterLabels | frontend/js/app.js:82 | The echoed `all` is labelled `All` and `vegan` is labelled `Vegan`. |

## Left out

- **Blob and CSV I/O** (backend/function_app.py:36-53). The download, UTF-8 decoding and `pd.read_csv` are not modelled. The parsed frame, or the exception text, is an input, and so is the storage setting.
- **CSV typing.** The reader's dtype inference is not modelled: a cell is text or a number as given.
- Analysis.PointsOf: `float()` on a text cell that spells a number succeeds in Python, but every text cell counts as unconvertible here.
- Handler.Readable: requires the parsed rows to match the header and the stripped headers to be distinct. pandas' behaviour for duplicate column names (selecting a frame instead of a series) is not modelled.
- **Floating point.** The values of the group means (with `round(2)`) and of the Pearson correlation are not computed. A `GroupMean` records the diet type, the column and whether the mean is NaN; a coefficient records only whether it is NaN. `mean()` or `corr()` over a column holding text, which pandas rejects, is not modelled, and rounding that makes two different numbers give a zero variance is not modelled.
- Analysis.Means: states which diet and column each entry averages and when it is NaN, not the value of the mean.
- **pandas ordering.** `groupby` sorts its keys and `value_counts` sorts by count; the model lists diet types in first-appearance order. The model builds `macronutrients.dietTypes` from the same list as the distribution labels. The contracts state only that the two hold the same diet types, and the lengths and order of each list against its own `dietTypes`.
- **`df.sample`.** It is random; the draw is a parameter, and the sample is its distinct in-range positions up to min(100, rows).
- **JSON serialisation.** The text of the body is not modelled. `json.dumps` writes a NaN as the bare token `NaN`, which `response.json()` rejects. A NaN group mean, coefficient or `Recipe_name` therefore makes `StrictJson` false, and the fetch then yields null. Infinite values are not modelled.
- **Unicode.** Case mapping and whitespace are modelled for ASCII only (`str.lower`, `toUpperCase`, `str.strip` on ASCII whitespace).
- **The fetch wrapper.** In frontend/js/api.js, the spinner, the wrapper's own `Failed to fetch data` alert and URL building without encoding are left out. Only its result is modelled: the parsed body for a 2xx status whose body is strict JSON, otherwise null. The health check is the boolean of the `Startup` trigger.
- **Timers and DOM styling.** The alert auto-hide timers, the success-toast removal, the refresh icon animation and the resize debounce only log or touch styling. The last-updated time is `SetLastUpdate` without the clock value.
- **Concurrency.** Overlapping loads started by several triggers are not interleaved: each load is modelled as one uninterrupted sequence.
- **Chart.js.** Options, scales, legends, tooltip number formatting and the pie tooltip's percentage (which divides by a zero total without a guard) are left out. The library is modelled only as the set of live instances and the create/destroy history.
- Charts.CreateBarChart: requires a readable argument. Reading `data.dietTypes` on null or undefined throws after the old chart was destroyed; the model does not cover that, since `loadDashboardData` only passes truthy values.
- Charts.CreatePieChart: requires a readable argument, for the same reason as the bar chart.
- Charts.BorderColors: its own contract states only the length. The content is stated by Charts.BordersOfFills and Charts.PieBordersOpaque.
- **Error texts.** The TypeError messages the model writes for reading a property of `undefined` or `null` (the `charAt` message, the point tooltip) are those of the V8 engine (Chrome, Edge, Node.js). Other engines word them differently; only the fact that the read throws is engine-independent.
- **Trailing text of app.js.** frontend/js/app.js after line 167 is not code and is not modelled.

=== FILE: analysis.dfy ===
/** The statistics the nutrition handler derives from the filtered frame:
    the recipe count per diet type (`value_counts`), the group keys of the
    per-diet means, and the sampled protein/carbs scatter points. */
module Analysis {
  import opened Maybe
  import opened Frames

  // ---------------------------------------------------------------------------
  // Recipe distribution
  // ---------------------------------------------------------------------------

  /** `value_counts()` as two parallel lists: each distinct diet type and the
      number of rows carrying it. */
  datatype Distribution = Distribution(labels: seq<Cell>, counts: seq<nat>)

  function Sum(s: seq<nat>): nat {
    if |s| == 0 then 0 else Sum(s[..|s| - 1]) + s[|s| - 1]
  }

  lemma SumAppend(s: seq<nat>, x: nat)
    ensures Sum(s + [x]) == Sum(s) + x
  {
    assert (s + [x])[..|s|] == s;
  }

  lemma {:induction false} SumIncrement(s: seq<nat>, i: nat)
    requires i < |s|
    ensures Sum(s[i := s[i] + 1]) == Sum(s) + 1
  {
    var t := s[i := s[i] + 1];
    if i < |s| - 1 {
      assert t[..|t| - 1] == s[..|s| - 1][i := s[i] + 1];
      SumIncrement(s[..|s| - 1], i);
    } else {
      assert t[..|t| - 1] == s[..|s| - 1];
    }
  }

  /** Counts one more row whose diet type is `c`. */
  function Bump(d: Distribution, c: Cell): Distribution
    requires |d.labels| == |d.counts|
  {
    match Find(d.labels, c)
    case Some(i) => Distribution(d.labels, d.counts[i := d.counts[i] + 1])
    case None => Distribution(d.labels + [c], d.counts + [1])
  }

  /** `value_counts()` over a column: NaN cells are dropped, every other value
      is counted under its first appearance. */
  function Tally(cells: seq<Option<Cell>>): (d: Distribution)
    ensures |d.labels| == |d.counts|
  {
    if |cells| == 0 then Distribution([], [])
    else
      var d := Tally(cells[..|cells| - 1]);
      match cells[|cells| - 1]
      case None => d
      case Some(c) => Bump(d, c)
  }

  /** The distribution is a faithful count: its labels are exactly the distinct
      non-NaN values of the column, each with a positive count equal to the
      number of rows holding it, and the counts add up to the number of rows
      that have a value at all. */
  ghost predicate CountsColumn(d: Distribution, cells: seq<Option<Cell>>) {
    && |d.labels| == |d.counts|
    && Distinct(d.labels)
    && (forall i :: 0 <= i < |d.labels| ==> d.counts[i] == multiset(cells)[Some(d.labels[i])] > 0)
    && (forall c :: Some(c) in cells <==> c in d.labels)
    && Sum(d.counts) == |cells| - multiset(cells)[None]
  }

  lemma BumpCounts(d: Distribution, p: seq<Option<Cell>>, c: Cell)
    requires CountsColumn(d, p)
    ensures CountsColumn(Bump(d, c), p + [Some(c)])
  {
    assert multiset(p + [Some(c)]) == multiset(p) + multiset{Some(c)};
    match Find(d.labels, c)
    case Some(i) => BumpSeen(d, p, c, i);
    case None => BumpFresh(d, p, c);
  }

  /** A row of an already counted diet type raises that type's count by one. */
  lemma BumpSeen(d: Distribution, p: seq<Option<Cell>>, c: Cell, i: nat)
    requires CountsColumn(d, p) && Find(d.labels, c) == Some(i)
    requires multiset(p + [Some(c)]) == multiset(p) + multiset{Some(c)}
    ensures CountsColumn(Bump(d, c), p + [Some(c)])
  {
    var e := Bump(d, c);
    assert e == Distribution(d.labels, d.counts[i := d.counts[i] + 1]);
    SumIncrement(d.counts, i);
    SeenCounts(d, p, c, i);
    forall x
      ensures Some(x) in p + [Some(c)] <==> x in e.labels
    {
      assert Some(x) in p + [Some(c)] <==> Some(x) in p || x == c;
    }
  }

  lemma SeenCounts(d: Distribution, p: seq<Option<Cell>>, c: Cell, i: nat)
    requires |d.labels| == |d.counts| && Distinct(d.labels) && i < |d.labels| && d.labels[i] == c
    requires forall k :: 0 <= k < |d.labels| ==> d.counts[k] == multiset(p)[Some(d.labels[k])] > 0
    requires multiset(p + [Some(c)]) == multiset(p) + multiset{Some(c)}
    ensures var counts := d.counts[i := d.counts[i] + 1];
      forall k :: 0 <= k < |d.labels| ==> counts[k] == multiset(p + [Some(c)])[Some(d.labels[k])] > 0
  {
    var counts := d.counts[i := d.counts[i] + 1];
    forall k | 0 <= k < |d.labels|
      ensures counts[k] == multiset(p + [Some(c)])[Some(d.labels[k])] > 0
    {
      if k != i {
        assert d.labels[k] != c by {
          if k < i {} else { assert d.labels[i] != d.labels[k]; }
        }
        assert multiset(p + [Some(c)])[Some(d.labels[k])] == multiset(p)[Some(d.labels[k])];
      }
    }
  }

  /** A row of a diet type not counted yet appends that type with count one. */
  lemma BumpFresh(d: Distribution, p: seq<Option<Cell>>, c: Cell)
    requires CountsColumn(d, p) && Find(d.labels, c).None?
    requires multiset(p + [Some(c)]) == multiset(p) + multiset{Some(c)}
    ensures CountsColumn(Bump(d, c), p + [Some(c)])
  {
    var e := Bump(d, c);
    assert e.labels == d.labels + [c] && e.counts == d.counts + [1];
    SumAppend(d.counts, 1);
    assert Some(c) !in p;
    FreshCounts(d, p, c);
    FreshLabels(d, p, c);
  }

  lemma FreshCounts(d: Distribution, p: seq<Option<Cell>>, c: Cell)
    requires |d.labels| == |d.counts| && c !in d.labels && Some(c) !in p
    requires forall i :: 0 <= i < |d.labels| ==> d.counts[i] == multiset(p)[Some(d.labels[i])] > 0
    requires multiset(p + [Some(c)]) == multiset(p) + multiset{Some(c)}
    ensures var e := Distribution(d.labels + [c], d.counts + [1]);
      forall k :: 0 <= k < |e.labels| ==> e.counts[k] == multiset(p + [Some(c)])[Some(e.labels[k])] > 0
  {
    var cells := p + [Some(c)];
    var e := Distribution(d.labels + [c], d.counts + [1]);
    var n := |d.labels|;
    assert multiset(p)[Some(c)] == 0;
    forall k | 0 <= k < |e.labels|
      ensures e.counts[k] == multiset(cells)[Some(e.labels[k])] > 0
    {
      if k < n {
        assert e.labels[k] == d.labels[k] && e.counts[k] == d.counts[k];
        assert d.labels[k] != c;
        assert multiset(cells)[Some(d.labels[k])] == multiset(p)[Some(d.labels[k])];
      } else {
        assert e.labels[k] == c && e.counts[k] == 1;
      }
    }
  }

  lemma FreshLabels(d: Distribution, p: seq<Option<Cell>>, c: Cell)
    requires Distinct(d.labels) && c !in d.labels
    requires forall x :: Some(x) in p <==> x in d.labels
    ensures Distinct(d.labels + [c])
    ensures forall x :: Some(x) in p + [Some(c)] <==> x in d.labels + [c]
  {
    var l := d.labels + [c];
    var n := |d.labels|;
    forall j, k | 0 <= j < k < |l|
      ensures l[j] != l[k]
    {
      if k == n {
        assert l[j] == d.labels[j];
      }
    }
    forall x
      ensures Some(x) in p + [Some(c)] <==> x in l
    {
      assert Some(x) in p + [Some(c)] <==> Some(x) in p || x == c;
      assert x in l <==> x in d.labels || x == c;
    }
  }

  /** A NaN cell leaves a faithful count faithful. */
  lemma SkipMissing(d: Distribution, p: seq<Option<Cell>>)
    requires CountsColumn(d, p)
    ensures CountsColumn(d, p + [None])
  {
    var cells := p + [None];
    assert multiset(cells) == multiset(p) + multiset{None};
    forall x
      ensures Some(x) in cells <==> Some(x) in p
    {
    }
  }

  lemma {:induction false} TallyCounts(cells: seq<Option<Cell>>)
    ensures CountsColumn(Tally(cells), cells)
  {
    if |cells| > 0 {
      var p := cells[..|cells| - 1];
      TallyCounts(p);
      assert cells == p + [cells[|cells| - 1]];
      match cells[|cells| - 1]
      case None =>
        SkipMissing(Tally(p), p);
      case Some(c) =>
        BumpCounts(Tally(p), p, c);
    }
  }

  // ---------------------------------------------------------------------------
  // Per-diet macronutrient means
  // ---------------------------------------------------------------------------

  /** A float the handler puts in its response, as `json.dumps` writes it: a
      finite number, or the bare token `NaN`. The value itself is not
      modelled; only whether it is NaN. */
  datatype FloatKind = Finite | NaN

  /** One entry of `diet_summary[column].round(2)`: the mean of `column` over
      the rows of `dietType`, of which the model keeps whether it is NaN. */
  datatype GroupMean = GroupMean(dietType: Cell, column: string, value: FloatKind)

  predicate IsNumber(c: Option<Cell>) {
    c.Some? && c.value.NumberCell?
  }

  /** Row `r` has diet type `key` and a number in column `j`. */
  predicate NumberFor(f: Frame, key: Cell, j: nat, r: nat)
    requires Aligned(f) && DietType in f.columns && j < |f.columns|
  {
    r < |f.rows| && f.rows[r][DietIndex(f)] == Some(key) && IsNumber(f.rows[r][j])
  }

  /** Some row at or after `from` has diet type `key` and a number in column `j`. */
  function AnyNumberFor(f: Frame, key: Cell, j: nat, from: nat): (b: bool)
    requires Aligned(f) && DietType in f.columns && j < |f.columns|
    ensures b <==> exists r :: from <= r < |f.rows| && NumberFor(f, key, j, r)
    decreases |f.rows| - from
  {
    if from >= |f.rows| then false
    else NumberFor(f, key, j, from) || AnyNumberFor(f, key, j, from + 1)
  }

  /** Some row of group `key` has a number in column `j`. */
  predicate GroupHasNumber(f: Frame, key: Cell, j: nat)
    requires Aligned(f) && DietType in f.columns && j < |f.columns|
  {
    exists r :: 0 <= r < |f.rows| && NumberFor(f, key, j, r)
  }

  /** `mean()` of column `j` over the group `key` skips NaN cells, so it is
      NaN exactly when no row of the group has a number there. */
  function MeanOf(f: Frame, key: Cell, j: nat): (v: FloatKind)
    requires Aligned(f) && DietType in f.columns && j < |f.columns|
    ensures v == Finite <==> GroupHasNumber(f, key, j)
  {
    if AnyNumberFor(f, key, j, 0) then Finite else NaN
  }

  /** The `macronutrients` list for macro `m`: one mean per group key when the
      canonical column is available, `[]` otherwise. */
  function Means(keys: seq<Cell>, f: Frame, m: Macro): (r: seq<GroupMean>)
    requires Aligned(f) && DietType in f.columns
    ensures MacroName(m) !in f.columns ==> r == []
    ensures MacroName(m) in f.columns ==>
              && |r| == |keys|
              && forall i :: 0 <= i < |r| ==>
                   && r[i].dietType == keys[i] && r[i].column == MacroName(m)
                   && (r[i].value == Finite <==> GroupHasNumber(f, keys[i], Find(f.columns, MacroName(m)).value))
  {
    match Find(f.columns, MacroName(m))
    case None => []
    case Some(j) =>
      var r := seq(|keys|, i requires 0 <= i < |keys| => GroupMean(keys[i], MacroName(m), MeanOf(f, keys[i], j)));
      assert forall i :: 0 <= i < |r| ==> r[i].value == MeanOf(f, keys[i], j);
      r
  }

  // ---------------------------------------------------------------------------
  // Protein/carbs correlation
  // ---------------------------------------------------------------------------

  /** Row `r` has numbers in both columns `pc` and `cc`: an observation that
      `corr()` uses (it drops a row with NaN in either column). */
  predicate Complete(f: Frame, pc: nat, cc: nat, r: nat)
    requires Aligned(f) && pc < |f.columns| && cc < |f.columns|
  {
    r < |f.rows| && IsNumber(f.rows[r][pc]) && IsNumber(f.rows[r][cc])
  }

  /** Two complete rows hold different numbers in column `j`: the column has
      a non-zero variance over the complete rows. */
  predicate Varies(f: Frame, pc: nat, cc: nat, j: nat)
    requires Aligned(f) && pc < |f.columns| && cc < |f.columns| && j < |f.columns|
  {
    exists r1, r2 :: 0 <= r1 < |f.rows| && 0 <= r2 < |f.rows|
      && Complete(f, pc, cc, r1) && Complete(f, pc, cc, r2) && f.rows[r1][j] != f.rows[r2][j]
  }

  /** The first complete row at or after `from`. */
  function FirstComplete(f: Frame, pc: nat, cc: nat, from: nat): (r: Option<nat>)
    requires Aligned(f) && pc < |f.columns| && cc < |f.columns|
    ensures r.Some? ==> from <= r.value && Complete(f, pc, cc, r.value)
    ensures r.None? ==> forall k :: from <= k < |f.rows| ==> !Complete(f, pc, cc, k)
    decreases |f.rows| - from
  {
    if from >= |f.rows| then None
    else if Complete(f, pc, cc, from) then Some(from)
    else FirstComplete(f, pc, cc, from + 1)
  }

  /** Some complete row at or after `from` holds something other than `c` in
      column `j`. */
  function DiffersFrom(f: Frame, pc: nat, cc: nat, j: nat, c: Option<Cell>, from: nat): (b: bool)
    requires Aligned(f) && pc < |f.columns| && cc < |f.columns| && j < |f.columns|
    ensures b <==> exists k :: from <= k < |f.rows| && Complete(f, pc, cc, k) && f.rows[k][j] != c
    decreases |f.rows| - from
  {
    if from >= |f.rows| then false
    else (Complete(f, pc, cc, from) && f.rows[from][j] != c) || DiffersFrom(f, pc, cc, j, c, from + 1)
  }

  /** Column `j` varies when some complete row differs from the first one. */
  function Spread(f: Frame, pc: nat, cc: nat, j: nat): bool
    requires Aligned(f) && pc < |f.columns| && cc < |f.columns| && j < |f.columns|
  {
    match FirstComplete(f, pc, cc, 0)
    case None => false
    case Some(r) => DiffersFrom(f, pc, cc, j, f.rows[r][j], 0)
  }

  lemma SpreadVaries(f: Frame, pc: nat, cc: nat, j: nat)
    requires Aligned(f) && pc < |f.columns| && cc < |f.columns| && j < |f.columns|
    ensures Spread(f, pc, cc, j) <==> Varies(f, pc, cc, j)
  {
    match FirstComplete(f, pc, cc, 0)
    case None =>
    case Some(r0) =>
      if Varies(f, pc, cc, j) {
        var r1, r2 :| 0 <= r1 < |f.rows| && 0 <= r2 < |f.rows|
          && Complete(f, pc, cc, r1) && Complete(f, pc, cc, r2) && f.rows[r1][j] != f.rows[r2][j];
        if f.rows[r1][j] == f.rows[r0][j] {
          assert Complete(f, pc, cc, r2) && f.rows[r2][j] != f.rows[r0][j];
        } else {
          assert Complete(f, pc, cc, r1) && f.rows[r1][j] != f.rows[r0][j];
        }
      }
      if Spread(f, pc, cc, j) {
        var k :| 0 <= k < |f.rows| && Complete(f, pc, cc, k) && f.rows[k][j] != f.rows[r0][j];
        assert r0 < |f.rows| && Complete(f, pc, cc, r0);
      }
  }

  /** `float(df[['Protein(g)', 'Carbs(g)']].corr().iloc[0, 1])`: Pearson's
      coefficient over the complete rows divides by both standard deviations,
      so it is NaN unless each column varies over those rows. */
  function Correlation(f: Frame, pc: nat, cc: nat): (v: FloatKind)
    requires Aligned(f) && pc < |f.columns| && cc < |f.columns|
    ensures v == Finite <==> Varies(f, pc, cc, pc) && Varies(f, pc, cc, cc)
  {
    SpreadVaries(f, pc, cc, pc);
    SpreadVaries(f, pc, cc, cc);
    if Spread(f, pc, cc, pc) && Spread(f, pc, cc, cc) then Finite else NaN
  }

  /** With at most one row there is no pair of rows to differ, so the
      coefficient is NaN. */
  lemma OneRowCorrelationIsNaN(f: Frame, pc: nat, cc: nat)
    requires Aligned(f) && pc < |f.columns| && cc < |f.columns| && |f.rows| <= 1
    ensures Correlation(f, pc, cc) == NaN
  {
  }

  // ---------------------------------------------------------------------------
  // Scatter sample
  // ---------------------------------------------------------------------------

  const SampleCap := 100

  /** `min(100, len(df))`. */
  function SampleSize(n: nat): nat {
    if n < SampleCap then n else SampleCap
  }

  /** `df.sample(n=...)` draws distinct rows in a random order. The draw is an
      input: `pick` lists candidate row positions, and the sample keeps the
      in-range ones not already taken, until it is full. */
  function DrawFrom(pick: seq<nat>, n: nat, acc: seq<nat>): (s: seq<nat>)
    requires Distinct(acc) && |acc| <= SampleSize(n)
    requires forall k :: 0 <= k < |acc| ==> acc[k] < n
    ensures Distinct(s) && |s| <= SampleSize(n)
    ensures forall k :: 0 <= k < |s| ==> s[k] < n
    ensures |acc| <= |s| && s[..|acc|] == acc
    decreases |pick|
  {
    if |acc| == SampleSize(n) || |pick| == 0 then acc
    else if pick[0] < n && pick[0] !in acc then
      var s := DrawFrom(pick[1..], n, acc + [pick[0]]);
      assert s[..|acc|] == (s[..|acc| + 1])[..|acc|];
      s
    else DrawFrom(pick[1..], n, acc)
  }

  function DrawSample(pick: seq<nat>, n: nat): seq<nat> {
    DrawFrom(pick, n, [])
  }

  /** A draw that already is a sample of the right size, distinct positions
      all in range, is taken as it stands. */
  lemma {:induction false} DrawKeepsValidSample(pick: seq<nat>, n: nat, acc: seq<nat>)
    requires Distinct(acc + pick) && |acc + pick| == SampleSize(n)
    requires forall k :: 0 <= k < |acc + pick| ==> (acc + pick)[k] < n
    requires Distinct(acc) && forall k :: 0 <= k < |acc| ==> acc[k] < n
    ensures DrawFrom(pick, n, acc) == acc + pick
    decreases |pick|
  {
    var t := acc + pick;
    assert forall k :: 0 <= k < |acc| ==> acc[k] == t[k];
    if |pick| > 0 {
      assert pick[0] == t[|acc|];
      assert pick[0] !in acc;
      assert acc + [pick[0]] + pick[1..] == t;
      assert acc + [pick[0]] == t[..|acc| + 1];
      DrawKeepsValidSample(pick[1..], n, acc + [pick[0]]);
    }
  }

  // ---------------------------------------------------------------------------
  // Scatter points
  // ---------------------------------------------------------------------------

  /** `{"x": ..., "y": ..., "label": ...}`; a `None` recipe label is a NaN cell. */
  datatype ScatterPoint = ScatterPoint(x: real, y: real, recipe: Option<Cell>)

  /** Python's `float(v)` of a cell the reader left as text. */
  function ToFloat(c: Cell): Result<real> {
    match c
    case NumberCell(x) => Ok(x)
    case TextCell(t) => Err("could not convert string to float: '" + t + "'")
  }

  const RecipeName := "Recipe_name"

  /** `row.get('Recipe_name', 'Unknown')`. */
  function RecipeLabel(f: Frame, row: Row): Option<Cell>
    requires |row| == |f.columns|
  {
    match Find(f.columns, RecipeName)
    case None => Some(TextCell("Unknown"))
    case Some(j) => row[j]
  }

  /** Row `r` has a protein cell (column `pc`) and a carbs cell (column `cc`),
      both non-NaN. */
  predicate BothPresent(f: Frame, pc: nat, cc: nat, r: nat)
    requires Aligned(f) && pc < |f.columns| && cc < |f.columns|
  {
    r < |f.rows| && f.rows[r][pc].Some? && f.rows[r][cc].Some?
  }

  /** Both cells of row `r` are present and one of them is text. */
  predicate Unconvertible(f: Frame, pc: nat, cc: nat, r: nat)
    requires Aligned(f) && pc < |f.columns| && cc < |f.columns|
  {
    BothPresent(f, pc, cc, r) && (f.rows[r][pc].value.TextCell? || f.rows[r][cc].value.TextCell?)
  }

  /** `p` is the point row `r` yields. */
  predicate PointOfRow(f: Frame, pc: nat, cc: nat, r: nat, p: ScatterPoint)
    requires Aligned(f) && pc < |f.columns| && cc < |f.columns|
  {
    && BothPresent(f, pc, cc, r)
    && f.rows[r][pc].value == NumberCell(p.x)
    && f.rows[r][cc].value == NumberCell(p.y)
    && p.recipe == RecipeLabel(f, f.rows[r])
  }

  function CountPresent(f: Frame, pc: nat, cc: nat, sample: seq<nat>): nat
    requires Aligned(f) && pc < |f.columns| && cc < |f.columns|
  {
    if |sample| == 0 then 0
    else (if BothPresent(f, pc, cc, sample[0]) then 1 else 0) + CountPresent(f, pc, cc, sample[1..])
  }

  /** The sampled rows that have both values, in sample order: exactly the
      rows the `pd.notna` guard lets through. */
  function PresentRows(f: Frame, pc: nat, cc: nat, sample: seq<nat>): (p: seq<nat>)
    requires Aligned(f) && pc < |f.columns| && cc < |f.columns|
    ensures |p| == CountPresent(f, pc, cc, sample)
    ensures forall i :: 0 <= i < |p| ==> p[i] in sample && BothPresent(f, pc, cc, p[i])
    ensures forall k :: 0 <= k < |sample| && BothPresent(f, pc, cc, sample[k]) ==> sample[k] in p
    ensures Distinct(sample) ==> Distinct(p)
  {
    if |sample| == 0 then []
    else
      var rest := PresentRows(f, pc, cc, sample[1..]);
      assert forall k :: 1 <= k < |sample| ==> sample[k] == sample[1..][k - 1];
      if BothPresent(f, pc, cc, sample[0]) then
        assert Distinct(sample) ==> sample[0] !in sample[1..];
        [sample[0]] + rest
      else rest
  }

  /** The list comprehension of lines 104-112 over the sampled rows, in sample
      order: rows with a NaN protein or carbs value are skipped, the others
      become points; the first text value raises, as `float` does. */
  function PointsOf(f: Frame, pc: nat, cc: nat, sample: seq<nat>): (r: Result<seq<ScatterPoint>>)
    requires Aligned(f) && pc < |f.columns| && cc < |f.columns|
    ensures r.Err? <==> exists k :: 0 <= k < |sample| && Unconvertible(f, pc, cc, sample[k])
    ensures r.Ok? ==> |r.value| == CountPresent(f, pc, cc, sample) <= |sample|
    ensures r.Ok? ==> forall q :: 0 <= q < |r.value| ==>
              exists k :: 0 <= k < |sample| && PointOfRow(f, pc, cc, sample[k], r.value[q])
  {
    if |sample| == 0 then Ok([])
    else
      var rest := PointsOf(f, pc, cc, sample[1..]);
      assert forall k :: 1 <= k < |sample| ==> sample[k] == sample[1..][k - 1];
      if !BothPresent(f, pc, cc, sample[0]) then rest
      else
        var row := f.rows[sample[0]];
        match ToFloat(row[pc].value)
        case Err(e) => Err(e)
        case Ok(x) =>
          match ToFloat(row[cc].value)
          case Err(e) => Err(e)
          case Ok(y) =>
            match rest
            case Err(e) => Err(e)
            case Ok(ps) =>
              var p := ScatterPoint(x, y, RecipeLabel(f, row));
              assert PointOfRow(f, pc, cc, sample[0], p);
              Ok([p] + ps)
  }

  /** `pts[q]` is the point of row `rows[q]`, for every position. */
  predicate PointsMatch(f: Frame, pc: nat, cc: nat, rows: seq<nat>, pts: seq<ScatterPoint>)
    requires Aligned(f) && pc < |f.columns| && cc < |f.columns|
  {
    |rows| == |pts| && forall q :: 0 <= q < |pts| ==> PointOfRow(f, pc, cc, rows[q], pts[q])
  }

  lemma PointsMatchCons(f: Frame, pc: nat, cc: nat, r: nat, rows: seq<nat>, p: ScatterPoint, pts: seq<ScatterPoint>)
    requires Aligned(f) && pc < |f.columns| && cc < |f.columns|
    requires PointsMatch(f, pc, cc, rows, pts) && PointOfRow(f, pc, cc, r, p)
    ensures PointsMatch(f, pc, cc, [r] + rows, [p] + pts)
  {
    var rs, ps := [r] + rows, [p] + pts;
    forall q | 1 <= q < |ps| ensures PointOfRow(f, pc, cc, rs[q], ps[q]) {
      assert ps[q] == pts[q - 1] && rs[q] == rows[q - 1];
    }
  }

  /** The points are those of the present rows, one each and in order. */
  lemma {:induction false} PointsFollowSample(f: Frame, pc: nat, cc: nat, sample: seq<nat>)
    requires Aligned(f) && pc < |f.columns| && cc < |f.columns| && PointsOf(f, pc, cc, sample).Ok?
    ensures PointsMatch(f, pc, cc, PresentRows(f, pc, cc, sample), PointsOf(f, pc, cc, sample).value)
  {
    if |sample| > 0 {
      var tail := sample[1..];
      if BothPresent(f, pc, cc, sample[0]) {
        PresentHead(f, pc, cc, sample);
        PointsFollowSample(f, pc, cc, tail);
        var pts := PointsOf(f, pc, cc, sample).value;
        PointsMatchCons(f, pc, cc, sample[0], PresentRows(f, pc, cc, tail),
                        pts[0], PointsOf(f, pc, cc, tail).value);
      } else {
        AbsentHead(f, pc, cc, sample);
        PointsFollowSample(f, pc, cc, tail);
      }
    }
  }

  /** A present first row gives the first point, and the rest follow. */
  lemma PresentHead(f: Frame, pc: nat, cc: nat, sample: seq<nat>)
    requires Aligned(f) && pc < |f.columns| && cc < |f.columns| && PointsOf(f, pc, cc, sample).Ok?
    requires |sample| > 0 && BothPresent(f, pc, cc, sample[0])
    ensures var pts := PointsOf(f, pc, cc, sample).value;
            && PointsOf(f, pc, cc, sample[1..]).Ok?
            && pts == [pts[0]] + PointsOf(f, pc, cc, sample[1..]).value
            && PointOfRow(f, pc, cc, sample[0], pts[0])
    ensures PresentRows(f, pc, cc, sample) == [sample[0]] + PresentRows(f, pc, cc, sample[1..])
  {
  }

  /** An absent first row is skipped by both the points and the present rows. */
  lemma AbsentHead(f: Frame, pc: nat, cc: nat, sample: seq<nat>)
    requires Aligned(f) && pc < |f.columns| && cc < |f.columns| && PointsOf(f, pc, cc, sample).Ok?
    requires |sample| > 0 && !BothPresent(f, pc, cc, sample[0])
    ensures PointsOf(f, pc, cc, sample) == PointsOf(f, pc, cc, sample[1..])
    ensures PresentRows(f, pc, cc, sample) == PresentRows(f, pc, cc, sample[1..])
  {
  }

  /** Every sampled row with both values yields a point of its own. */
  lemma EveryPresentRowPlotted(f: Frame, pc: nat, cc: nat, sample: seq<nat>)
    requires Aligned(f) && pc < |f.columns| && cc < |f.columns| && PointsOf(f, pc, cc, sample).Ok?
    ensures var pts := PointsOf(f, pc, cc, sample).value;
            forall k :: 0 <= k < |sample| && BothPresent(f, pc, cc, sample[k]) ==>
              exists q :: 0 <= q < |pts| && PointOfRow(f, pc, cc, sample[k], pts[q])
  {
    var pts := PointsOf(f, pc, cc, sample).value;
    var rows := PresentRows(f, pc, cc, sample);
    PointsFollowSample(f, pc, cc, sample);
    assert PointsMatch(f, pc, cc, rows, pts);
    forall k | 0 <= k < |sample| && BothPresent(f, pc, cc, sample[k])
      ensures exists q :: 0 <= q < |pts| && PointOfRow(f, pc, cc, sample[k], pts[q])
    {
      var q :| 0 <= q < |rows| && rows[q] == sample[k];
      assert PointOfRow(f, pc, cc, rows[q], pts[q]);
    }
  }

  /** Lines 98-112: no points unless both the protein and the carbs column
      exist; otherwise the points of the drawn sample. */
  function ScatterData(f: Frame, pick: seq<nat>): Result<seq<ScatterPoint>>
    requires Aligned(f)
  {
    match (Find(f.columns, MacroName(Protein)), Find(f.columns, MacroName(Carbs)))
    case (Some(pc), Some(cc)) => PointsOf(f, pc, cc, DrawSample(pick, |f.rows|))
    case _ => Ok([])
  }

  /** The scatter list is empty unless both columns exist, holds at most
      min(100, rows) points, and each point is the protein/carbs pair and
      recipe label of a distinct sampled row where both values are present. */
  lemma ScatterDataSpec(f: Frame, pick: seq<nat>)
    requires Aligned(f)
    ensures (ScatterData(f, pick).Ok? && (MacroName(Protein) !in f.columns || MacroName(Carbs) !in f.columns))
              ==> ScatterData(f, pick).value == []
    ensures ScatterData(f, pick).Ok? ==> |ScatterData(f, pick).value| <= SampleSize(|f.rows|)
    ensures ScatterData(f, pick).Ok? && MacroName(Protein) in f.columns && MacroName(Carbs) in f.columns ==>
              var pc := Find(f.columns, MacroName(Protein)).value;
              var cc := Find(f.columns, MacroName(Carbs)).value;
              var s := DrawSample(pick, |f.rows|);
              var pts := ScatterData(f, pick).value;
              && Distinct(s)
              && (forall q :: 0 <= q < |pts| ==> exists k :: 0 <= k < |s| && PointOfRow(f, pc, cc, s[k], pts[q]))
              && (forall k :: 0 <= k < |s| && BothPresent(f, pc, cc, s[k]) ==>
                    exists q :: 0 <= q < |pts| && PointOfRow(f, pc, cc, s[k], pts[q]))
              && |pts| == |PresentRows(f, pc, cc, s)| && Distinct(PresentRows(f, pc, cc, s))
              && (forall q :: 0 <= q < |pts| ==> PointOfRow(f, pc, cc, PresentRows(f, pc, cc, s)[q], pts[q]))
  {
    match (Find(f.columns, MacroName(Protein)), Find(f.columns, MacroName(Carbs)))
    case (Some(pc), Some(cc)) =>
      if ScatterData(f, pick).Ok? {
        PointsFollowSample(f, pc, cc, DrawSample(pick, |f.rows|));
        EveryPresentRowPlotted(f, pc, cc, DrawSample(pick, |f.rows|));
      }
    case _ =>
  }
}

=== FILE: charts.dfy ===
/** The chart layer of the dashboard: three module-level handles, one per chart
    kind, each either empty or holding the live chart drawn on its canvas; the
    configurations handed to the charting library; and the teardown that empties
    all three handles. The charting library itself is represented only by the
    set of live instances and the history of create/destroy calls made on it. */
module Charts {
  import opened Maybe
  import opened Text
  import opened Js

  datatype ChartKind = BarKind | ScatterKind | PieKind

  /** A dataset colour: one colour for every element, or one per element. */
  datatype Colors = Single(color: string) | Each(colors: seq<string>)

  /** One dataset of a chart: its legend text (the pie's has none), its data and
      its fill and border colours. */
  datatype Dataset = Dataset(legend: Option<string>, data: JsValue, fill: Colors, border: Colors)

  /** What is passed to `new Chart`: the chart type, the category labels (the
      scatter plot has none) and the datasets. */
  datatype ChartConfig = ChartConfig(kind: ChartKind, labels: Option<JsValue>, datasets: seq<Dataset>)

  /** A chart the library has created, identified by creation order. */
  datatype Instance = Instance(id: nat, config: ChartConfig)

  datatype Lifecycle = Destroyed(id: nat) | Created(id: nat, kind: ChartKind)

  /** The three handles, the library's live charts by id, the id the next chart
      will get, and every create/destroy call so far in order. */
  datatype ChartState = ChartState(
    bar: Option<Instance>,
    scatter: Option<Instance>,
    pie: Option<Instance>,
    live: map<nat, ChartKind>,
    nextId: nat,
    history: seq<Lifecycle>)

  /** Which of the three canvas elements the page holds. */
  datatype Canvases = Canvases(hasBar: bool, hasScatter: bool, hasPie: bool)

  const Initial: ChartState := ChartState(None, None, None, map[], 0, [])

  function Handle(s: ChartState, k: ChartKind): Option<Instance> {
    match k
    case BarKind => s.bar
    case ScatterKind => s.scatter
    case PieKind => s.pie
  }

  function WithHandle(s: ChartState, k: ChartKind, h: Option<Instance>): (r: ChartState)
    ensures Handle(r, k) == h
    ensures forall k' :: k' != k ==> Handle(r, k') == Handle(s, k')
    ensures r.live == s.live && r.nextId == s.nextId && r.history == s.history
  {
    match k
    case BarKind => s.(bar := h)
    case ScatterKind => s.(scatter := h)
    case PieKind => s.(pie := h)
  }

  function HasCanvas(c: Canvases, k: ChartKind): bool {
    match k
    case BarKind => c.hasBar
    case ScatterKind => c.hasScatter
    case PieKind => c.hasPie
  }

  /** A handle that is set holds a live chart of its own kind. */
  ghost predicate HandleLive(s: ChartState, k: ChartKind) {
    Handle(s, k).Some? ==> Holds(s, k, Handle(s, k).value)
  }

  ghost predicate Holds(s: ChartState, k: ChartKind, i: Instance) {
    i.config.kind == k && i.id < s.nextId && i.id in s.live && s.live[i.id] == k
  }

  /** The handles and the library agree: every handle that is set holds a live
      chart of its kind, and every live chart is held by the handle of its kind
      (no chart is leaked). */
  ghost predicate Valid(s: ChartState) {
    && (forall k :: HandleLive(s, k))
    && (forall id :: id in s.live ==>
          Handle(s, s.live[id]).Some? && Handle(s, s.live[id]).value.id == id)
  }

  /** The live charts of one kind. */
  ghost function LiveOfKind(s: ChartState, k: ChartKind): set<nat> {
    set id | id in s.live && s.live[id] == k
  }

  function Ids(h: Option<Instance>): set<nat> {
    if h.Some? then {h.value.id} else {}
  }

  lemma InitialValid()
    ensures Valid(Initial)
    ensures forall k :: LiveOfKind(Initial, k) == {}
  {
  }

  /** In a consistent state the live charts of a kind are exactly the one its
      handle holds, so there is never more than one per kind. */
  lemma LiveIsHandle(s: ChartState, k: ChartKind)
    requires Valid(s)
    ensures LiveOfKind(s, k) == Ids(Handle(s, k))
    ensures |LiveOfKind(s, k)| <= 1
  {
    assert HandleLive(s, k);
  }

  /** What a teardown of handle `k` logs. */
  function Released(h: Option<Instance>): seq<Lifecycle> {
    if h.Some? then [Destroyed(h.value.id)] else []
  }

  /** `if (xChartInstance) { xChartInstance.destroy(); }` followed, in the
      teardown, by clearing the handle. */
  function Release(s: ChartState, k: ChartKind): (r: ChartState)
    ensures Handle(r, k).None?
    ensures forall k' :: k' != k ==> Handle(r, k') == Handle(s, k')
    ensures r.nextId == s.nextId
    ensures r.history == s.history + Released(Handle(s, k))
    ensures r.live.Keys == s.live.Keys - Ids(Handle(s, k))
    ensures Valid(s) ==> Valid(r)
  {
    match Handle(s, k)
    case None => s
    case Some(i) =>
      var r := WithHandle(s, k, None).(live := s.live - {i.id}, history := s.history + [Destroyed(i.id)]);
      ReleaseValid(s, k, r);
      r
  }

  lemma ReleaseValid(s: ChartState, k: ChartKind, r: ChartState)
    requires Handle(s, k).Some?
    requires r == WithHandle(s, k, None).(live := s.live - {Handle(s, k).value.id},
                                           history := s.history + [Destroyed(Handle(s, k).value.id)])
    ensures Valid(s) ==> Valid(r)
  {
    if Valid(s) {
      var gone := Handle(s, k).value.id;
      assert HandleLive(s, k);
      forall k' ensures HandleLive(r, k') {
        if k' != k {
          assert HandleLive(s, k');
          if Handle(s, k').Some? {
            assert Handle(s, k').value.id != gone;
          }
        }
      }
      forall id | id in r.live
        ensures Handle(r, r.live[id]).Some? && Handle(r, r.live[id]).value.id == id
      {
        assert id in s.live && id != gone && r.live[id] == s.live[id];
      }
    }
  }

  /** `new Chart(ctx, cfg)` stored in the handle of the config's kind. */
  function Install(s: ChartState, cfg: ChartConfig): (r: ChartState)
    requires Handle(s, cfg.kind).None?
    ensures Handle(r, cfg.kind) == Some(Instance(s.nextId, cfg))
    ensures forall k' :: k' != cfg.kind ==> Handle(r, k') == Handle(s, k')
    ensures r.nextId == s.nextId + 1
    ensures r.history == s.history + [Created(s.nextId, cfg.kind)]
    ensures r.live.Keys == s.live.Keys + {s.nextId}
    ensures Valid(s) ==> Valid(r)
  {
    var i := Instance(s.nextId, cfg);
    var r := WithHandle(s, cfg.kind, Some(i)).(live := s.live[i.id := cfg.kind],
                                                nextId := s.nextId + 1,
                                                history := s.history + [Created(i.id, cfg.kind)]);
    InstallValid(s, cfg, r);
    r
  }

  lemma InstallValid(s: ChartState, cfg: ChartConfig, r: ChartState)
    requires Handle(s, cfg.kind).None?
    requires r == WithHandle(s, cfg.kind, Some(Instance(s.nextId, cfg))).(
                    live := s.live[s.nextId := cfg.kind],
                    nextId := s.nextId + 1,
                    history := s.history + [Created(s.nextId, cfg.kind)])
    ensures Valid(s) ==> Valid(r)
  {
    if Valid(s) {
      forall id | id in s.live ensures id < s.nextId {
        assert HandleLive(s, s.live[id]);
      }
      forall k' ensures HandleLive(r, k') {
        assert HandleLive(s, k');
      }
      forall id | id in r.live
        ensures Handle(r, r.live[id]).Some? && Handle(r, r.live[id]).value.id == id
      {
        if id != s.nextId {
          assert id in s.live && r.live[id] == s.live[id];
          assert Handle(s, s.live[id]).Some?;
        }
      }
    }
  }

  /** The shared shape of createBarChart, createScatterPlot and createPieChart:
      nothing happens without the canvas; otherwise the chart the handle holds
      is destroyed and a new one, built from `cfg`, takes its place. */
  function Render(s: ChartState, canvas: bool, cfg: ChartConfig): (r: ChartState)
    ensures !canvas ==> r == s
    ensures canvas ==> Handle(r, cfg.kind) == Some(Instance(s.nextId, cfg)) && r.nextId == s.nextId + 1
    ensures forall k :: k != cfg.kind ==> Handle(r, k) == Handle(s, k)
    ensures canvas ==> r.history == s.history + Released(Handle(s, cfg.kind)) + [Created(s.nextId, cfg.kind)]
    ensures canvas ==> r.live.Keys == s.live.Keys - Ids(Handle(s, cfg.kind)) + {s.nextId}
    ensures Valid(s) ==> Valid(r)
  {
    if !canvas then s else Install(Release(s, cfg.kind), cfg)
  }

  /** Rendering a kind twice in a row leaves exactly one live chart of that
      kind, the one built from the second call's data; the first is destroyed. */
  lemma RenderTwiceLeavesOne(s: ChartState, c1: ChartConfig, c2: ChartConfig)
    requires Valid(s) && c1.kind == c2.kind
    ensures var r := Render(Render(s, true, c1), true, c2);
      && Valid(r)
      && LiveOfKind(r, c2.kind) == {s.nextId + 1}
      && Handle(r, c2.kind) == Some(Instance(s.nextId + 1, c2))
      && s.nextId !in r.live
      && r.history[|r.history| - 2..] == [Destroyed(s.nextId), Created(s.nextId + 1, c2.kind)]
  {
    var r := Render(Render(s, true, c1), true, c2);
    LiveIsHandle(r, c2.kind);
  }

  /** Rendering one kind destroys and creates charts of that kind only. */
  lemma RenderTouchesOneKind(s: ChartState, canvas: bool, cfg: ChartConfig, k: ChartKind)
    requires Valid(s) && k != cfg.kind
    ensures LiveOfKind(Render(s, canvas, cfg), k) == LiveOfKind(s, k)
  {
    var r := Render(s, canvas, cfg);
    LiveIsHandle(s, k);
    LiveIsHandle(r, k);
  }

  /** destroyAllCharts: the bar, scatter and pie handles are torn down in that
      order and left empty. */
  function DestroyAllCharts(s: ChartState): (r: ChartState)
    ensures r.bar.None? && r.scatter.None? && r.pie.None?
    ensures r.nextId == s.nextId
    ensures r.history == s.history + Released(s.bar) + Released(s.scatter) + Released(s.pie)
    ensures Valid(s) ==> Valid(r) && r.live == map[]
  {
    var r := Release(Release(Release(s, BarKind), ScatterKind), PieKind);
    NothingHeldNothingLive(r);
    r
  }

  /** With every handle empty, a consistent state has no live chart. */
  lemma NothingHeldNothingLive(s: ChartState)
    requires s.bar.None? && s.scatter.None? && s.pie.None?
    ensures Valid(s) ==> s.live == map[]
  {
  }

  /** A second teardown finds nothing to destroy. */
  lemma DestroyAllIdempotent(s: ChartState)
    ensures DestroyAllCharts(DestroyAllCharts(s)) == DestroyAllCharts(s)
  {
    var r := DestroyAllCharts(s);
    var r2 := DestroyAllCharts(r);
    assert r2.history == r.history;
    assert Release(r, BarKind) == r;
    assert Release(r, ScatterKind) == r;
    assert Release(r, PieKind) == r;
  }

  // ----- configurations -----

  function Rgba(rgb: string, alpha: string): string {
    "rgba(" + rgb + ", " + alpha + ")"
  }

  const ProteinRgb := "54, 162, 235"
  const CarbsRgb := "255, 206, 86"
  const FatRgb := "255, 99, 132"
  const ScatterRgb := "75, 192, 192"

  /** A dataset filled at 0.7 opacity with an opaque border of the same colour. */
  function Series(legend: string, data: JsValue, rgb: string): Dataset {
    Dataset(Some(legend), data, Single(Rgba(rgb, "0.7")), Single(Rgba(rgb, "1")))
  }

  /** The bar chart's labels and its three series, each defaulting to an empty
      array when the key is absent or falsy. */
  function BarConfig(data: JsValue): ChartConfig
    requires Readable(data)
  {
    ChartConfig(BarKind, Some(Or(Get(data, "dietTypes"), EmptyArray)), [
      Series("Protein (g)", Or(Get(data, "protein"), EmptyArray), ProteinRgb),
      Series("Carbs (g)", Or(Get(data, "carbs"), EmptyArray), CarbsRgb),
      Series("Fat (g)", Or(Get(data, "fat"), EmptyArray), FatRgb)])
  }

  /** A property of a response object, or the empty array when it is absent or
      falsy. */
  function Field(props: map<string, JsValue>, key: string): JsValue {
    if key in props && Truthy(props[key]) then props[key] else EmptyArray
  }

  /** The bar chart shows the diet types as categories and one series per
      macronutrient, in the order protein, carbs, fat, each series taking the
      response's list for that nutrient. */
  lemma BarMapping(props: map<string, JsValue>)
    ensures var cfg := BarConfig(Obj(props));
      && cfg.kind == BarKind
      && cfg.labels == Some(Field(props, "dietTypes"))
      && |cfg.datasets| == 3
      && cfg.datasets[0].legend == Some("Protein (g)") && cfg.datasets[0].data == Field(props, "protein")
      && cfg.datasets[1].legend == Some("Carbs (g)") && cfg.datasets[1].data == Field(props, "carbs")
      && cfg.datasets[2].legend == Some("Fat (g)") && cfg.datasets[2].data == Field(props, "fat")
      && (forall i :: 0 <= i < 3 ==> cfg.datasets[i].fill.Single? && cfg.datasets[i].border.Single?)
  {
  }

  /** The vegan/keto example: each diet's protein, carbs and fat sit at the same
      position of the three series as the diet's name in the labels. */
  lemma BarExample()
    ensures var cfg := BarConfig(Obj(map[
      "dietTypes" := Arr([Str("vegan"), Str("keto")]),
      "protein" := Arr([Num(20.0), Num(80.0)]),
      "carbs" := Arr([Num(60.0), Num(10.0)]),
      "fat" := Arr([Num(15.0), Num(60.0)])]));
      && cfg.labels == Some(Arr([Str("vegan"), Str("keto")]))
      && cfg.datasets[0].data.items[1] == Num(80.0)
      && cfg.datasets[1].data.items[0] == Num(60.0)
      && cfg.datasets[2].data.items[1] == Num(60.0)
  {
  }

  function ScatterConfig(data: JsValue): ChartConfig {
    ChartConfig(ScatterKind, None,
      [Dataset(Some("Recipes"), Or(data, EmptyArray), Single(Rgba(ScatterRgb, "0.6")), Single(Rgba(ScatterRgb, "1")))])
  }

  /** The scatter plot has one dataset, "Recipes", holding the points as given,
      or no points when the argument is falsy; it has no category labels. */
  lemma ScatterMapping(data: JsValue)
    ensures var cfg := ScatterConfig(data);
      && cfg.kind == ScatterKind && cfg.labels.None?
      && |cfg.datasets| == 1 && cfg.datasets[0].legend == Some("Recipes")
      && (Truthy(data) ==> cfg.datasets[0].data == data)
      && (!Truthy(data) ==> cfg.datasets[0].data == Arr([]))
  {
  }

  const NoRecipe := "Recipe"

  /** The first line of a scatter point's tooltip: the point's `label`, or
      "Recipe" when that is falsy. Reading it from null or undefined throws. */
  function PointTitle(point: JsValue): (r: Result<JsValue>)
    ensures r.Err? <==> !Readable(point)
    ensures r.Ok? && Truthy(Get(point, "label")) ==> r.value == Get(point, "label")
    ensures r.Ok? && !Truthy(Get(point, "label")) ==> r.value == Str(NoRecipe)
    ensures r.Ok? ==> Truthy(r.value)
  {
    if !Readable(point) then
      Err("Cannot read properties of " + (if point.Null? then "null" else "undefined") + " (reading 'label')")
    else Ok(Or(Get(point, "label"), Str(NoRecipe)))
  }

  const PieRgb := ["255, 99, 132", "54, 162, 235", "255, 206, 86", "75, 192, 192",
                   "153, 102, 255", "255, 159, 64", "199, 199, 199", "83, 102, 255"]

  /** Every colour of a palette at one opacity. */
  function AtAlpha(rgbs: seq<string>, alpha: string): (r: seq<string>)
    ensures |r| == |rgbs|
    ensures forall i :: 0 <= i < |rgbs| ==> r[i] == Rgba(rgbs[i], alpha)
  {
    if |rgbs| == 0 then [] else [Rgba(rgbs[0], alpha)] + AtAlpha(rgbs[1..], alpha)
  }

  const PieFills := AtAlpha(PieRgb, "0.7")

  /** `colors.map(color => color.replace('0.7', '1'))`. */
  function BorderColors(fills: seq<string>): (r: seq<string>)
    ensures |r| == |fills|
  {
    seq(|fills|, i requires 0 <= i < |fills| => ReplaceFirst(fills[i], "0.7", "1"))
  }

  /** The pie's border colours, derived from the fills at run time. */
  const PieBorders := BorderColors(PieFills)

  /** Replacing the first "0.7" of a 0.7-alpha colour turns it into the same
      colour at full opacity, provided the colour components hold no '.'. */
  lemma OpaqueBorder(rgb: string)
    requires '.' !in rgb
    ensures ReplaceFirst(Rgba(rgb, "0.7"), "0.7", "1") == Rgba(rgb, "1")
  {
    var a := "rgba(" + rgb + ", ";
    assert '.' !in a by {
      forall j | 0 <= j < |a| ensures a[j] != '.' {
        if 5 <= j < 5 + |rgb| {
          assert a[j] == rgb[j - 5];
        }
      }
    }
    assert Rgba(rgb, "0.7") == a + "0.7" + ")";
    assert Rgba(rgb, "1") == a + "1" + ")";
    NoOccurrenceBefore(a, "0.7", ")");
    ReplaceFirstAt(a, "0.7", ")", "1");
  }

  /** A palette whose colour components hold no '.'. */
  predicate Dotless(rgbs: seq<string>) {
    forall i :: 0 <= i < |rgbs| ==> '.' !in rgbs[i]
  }

  /** Turning each 0.7-alpha colour of a dotless palette opaque with
      `replace('0.7', '1')` gives the same palette at full opacity. */
  lemma {:induction false} BordersOfFills(rgbs: seq<string>)
    requires Dotless(rgbs)
    ensures BorderColors(AtAlpha(rgbs, "0.7")) == AtAlpha(rgbs, "1")
  {
    forall i | 0 <= i < |rgbs|
      ensures BorderColors(AtAlpha(rgbs, "0.7"))[i] == AtAlpha(rgbs, "1")[i]
    {
      OpaqueBorder(rgbs[i]);
    }
  }

  /** Each pie slice's border is its fill colour made opaque. */
  lemma PieBordersOpaque()
    ensures |PieFills| == 8
    ensures PieBorders == AtAlpha(PieRgb, "1")
  {
    assert Dotless(PieRgb);
    BordersOfFills(PieRgb);
  }

  function PieConfig(data: JsValue): ChartConfig
    requires Readable(data)
  {
    ChartConfig(PieKind, Some(Or(Get(data, "dietTypes"), EmptyArray)),
      [Dataset(None, Or(Get(data, "recipeCounts"), EmptyArray), Each(PieFills), Each(PieBorders))])
  }

  /** The pie chart shows one slice per diet type sized by its recipe count,
      coloured from the fixed eight-colour palette with opaque borders. */
  lemma PieMapping(props: map<string, JsValue>)
    ensures var cfg := PieConfig(Obj(props));
      && cfg.kind == PieKind
      && cfg.labels == Some(Field(props, "dietTypes"))
      && |cfg.datasets| == 1
      && cfg.datasets[0].legend.None?
      && cfg.datasets[0].data == Field(props, "recipeCounts")
      && cfg.datasets[0].fill == Each(PieFills)
      && cfg.datasets[0].border == Each(AtAlpha(PieRgb, "1"))
  {
    PieBordersOpaque();
  }

  function CreateBarChart(s: ChartState, page: Canvases, data: JsValue): ChartState
    requires Readable(data)
  {
    Render(s, page.hasBar, BarConfig(data))
  }

  function CreateScatterPlot(s: ChartState, page: Canvases, data: JsValue): ChartState {
    Render(s, page.hasScatter, ScatterConfig(data))
  }

  function CreatePieChart(s: ChartState, page: Canvases, data: JsValue): ChartState
    requires Readable(data)
  {
    Render(s, page.hasPie, PieConfig(data))
  }
}

=== FILE: dashboard.dfy ===
/** The dashboard controller: what one load of the dashboard does, given the
    page's elements and the parsed response (or its absence), as the ordered
    list of effects it performs; which filter each user or browser trigger
    reloads with; and what those effects do to the chart handles. */
module Dashboard {
  import opened Maybe
  import opened Text
  import opened Js
  import opened Charts

  /** One observable step of the controller. `Fetch` is the request for the
      insights of a filter; the `Set...` effects write the metadata fields;
      the `Render...` effects call the chart functions with their argument. */
  datatype Effect =
    | Fetch(filter: string)
    | SetExecTime(shown: JsValue)
    | SetRecordCount(count: JsValue)
    | SetActiveFilter(text: string)
    | SetLastUpdate
    | RenderBar(macros: JsValue)
    | RenderScatter(points: JsValue)
    | RenderPie(distribution: JsValue)
    | ShowSuccess(notice: string)
    | ShowError(alert: string)
    | DestroyAll

  /** Which elements the page holds: the four metadata fields, the diet
      selector with its current value, the refresh button and the canvases. */
  datatype Page = Page(
    hasExecTime: bool,
    hasRecordCount: bool,
    hasActiveFilter: bool,
    hasLastUpdate: bool,
    selector: Option<string>,
    hasRefresh: bool,
    canvases: Canvases)

  const FailedToLoad := "Failed to load data. Please try again."
  const LoadedNotice := "Data loaded successfully!"
  const LoadErrorPrefix := "An error occurred while loading data: "
  const HealthWarning := "Warning: API health check failed. Some features may not work."
  const RestoredNotice := "Connection restored. Refreshing data..."
  const OfflineAlert := "No internet connection. Please check your network."
  const NoExecTime := "--"
  const UndefinedFilter := "Cannot read properties of undefined (reading 'charAt')"

  // ----- updateMetadata -----

  /** The active-filter label: "All" for exactly "all", otherwise the filter
      with its first character upper-cased. A filter that is not a string
      throws the TypeError a browser reports for `data.filter.charAt(0)`. */
  function FilterLabel(filter: JsValue): (r: Result<string>)
    ensures r.Ok? <==> filter.Str?
    ensures filter.Undefined? ==> r == Err(UndefinedFilter)
    ensures filter.Null? ==> r == Err("Cannot read properties of null (reading 'charAt')")
  {
    match filter
    case Str(s) => if s == "all" then Ok("All") else Ok(Capitalize(s))
    case Undefined => Err(UndefinedFilter)
    case Null => Err("Cannot read properties of null (reading 'charAt')")
    case _ => Err("data.filter.charAt is not a function")
  }

  /** The label of a string filter: "All" for "all", otherwise the filter
      with only its first character upper-cased. */
  lemma FilterLabelText(s: string)
    ensures s == "all" ==> FilterLabel(Str(s)) == Ok("All")
    ensures s != "all" ==>
      |FilterLabel(Str(s)).value| == |s| &&
      (|s| > 0 ==> FilterLabel(Str(s)).value[0] == UpperChar(s[0])
                   && FilterLabel(Str(s)).value[1..] == s[1..])
  {
  }

  /** The labels of the two examples: a lower-case diet name is capitalised,
      and the empty filter stays empty. */
  lemma FilterLabelExamples()
    ensures FilterLabel(Str("vegan")) == Ok("Vegan")
    ensures FilterLabel(Str("")) == Ok("")
    ensures FilterLabel(Str("All")) == Ok("All")
    ensures FilterLabel(Num(3.0)).Err?
  {
    assert UpperChar('v') == 'V';
    assert "vegan"[1..] == "egan";
    assert ['V'] + "egan" == "Vegan";
    assert "All"[0] == 'A' && "All"[1..] == "ll";
    assert ['A'] + "ll" == "All";
  }

  /** The effects of a step that may throw, and the message it threw. */
  datatype Outcome = Outcome(effects: seq<Effect>, thrown: Option<string>)

  function When(present: bool, e: Effect): seq<Effect> {
    if present then [e] else []
  }

  /** The value written into the execution-time field: the response's, or
      "--" when that is absent or falsy. */
  function ExecTimeShown(data: JsValue): JsValue
    requires Readable(data)
  {
    Or(Get(data, "executionTime"), Str(NoExecTime))
  }

  /** The value written into the record-count field: the response's, or 0
      when that is absent or falsy. */
  function RecordCountShown(data: JsValue): JsValue
    requires Readable(data)
  {
    Or(Get(data, "recordCount"), Num(0.0))
  }

  /** The execution-time and record-count writes, which come before anything
      in updateMetadata can throw. */
  function Written(page: Page, data: JsValue): seq<Effect>
    requires Readable(data)
  {
    When(page.hasExecTime, SetExecTime(ExecTimeShown(data)))
    + When(page.hasRecordCount, SetRecordCount(RecordCountShown(data)))
  }

  /** updateMetadata: each field is written only if its element exists; the
      active filter's label is computed only then, and when that throws the
      last-updated time is not written. */
  function UpdateMetadata(page: Page, data: JsValue): (m: Outcome)
    requires Readable(data)
    ensures m.thrown.Some? <==> page.hasActiveFilter && FilterLabel(Get(data, "filter")).Err?
    ensures m.thrown.Some? ==> m == Outcome(Written(page, data), Some(FilterLabel(Get(data, "filter")).message))
  {
    var written := Written(page, data);
    if !page.hasActiveFilter then
      Outcome(written + When(page.hasLastUpdate, SetLastUpdate), None)
    else
      match FilterLabel(Get(data, "filter"))
      case Err(msg) => Outcome(written, Some(msg))
      case Ok(shown) => Outcome(written + [SetActiveFilter(shown)] + When(page.hasLastUpdate, SetLastUpdate), None)
  }

  /** A missing or falsy execution time shows "--" and a missing or falsy
      record count shows 0; otherwise the response's values are shown. The
      shown execution time is never blank. */
  lemma MetadataDefaults(data: JsValue)
    requires Readable(data)
    ensures Truthy(Get(data, "executionTime")) ==> ExecTimeShown(data) == Get(data, "executionTime")
    ensures !Truthy(Get(data, "executionTime")) ==> ExecTimeShown(data) == Str(NoExecTime)
    ensures Truthy(Get(data, "recordCount")) ==> RecordCountShown(data) == Get(data, "recordCount")
    ensures !Truthy(Get(data, "recordCount")) ==> RecordCountShown(data) == Num(0.0)
    ensures Truthy(ExecTimeShown(data))
  {
  }

  /** Which fields updateMetadata writes: the execution time and record count
      whenever their elements exist, even if the label then throws; the
      active filter exactly when its label can be computed; the last-updated
      time only when nothing threw. */
  lemma MetadataWrites(page: Page, data: JsValue)
    requires Readable(data)
    ensures var m := UpdateMetadata(page, data);
      && (forall v :: SetExecTime(v) in m.effects <==> page.hasExecTime && v == ExecTimeShown(data))
      && (forall v :: SetRecordCount(v) in m.effects <==> page.hasRecordCount && v == RecordCountShown(data))
      && (forall l :: SetActiveFilter(l) in m.effects <==> page.hasActiveFilter && FilterLabel(Get(data, "filter")) == Ok(l))
      && (SetLastUpdate in m.effects <==> page.hasLastUpdate && m.thrown.None?)
  {
    var m := UpdateMetadata(page, data);
    var w := Written(page, data);
    assert forall e :: e in w ==> e.SetExecTime? || e.SetRecordCount?;
    if !page.hasActiveFilter {
      assert m.effects == w + When(page.hasLastUpdate, SetLastUpdate);
    } else if FilterLabel(Get(data, "filter")).Ok? {
      assert m.effects == w + [SetActiveFilter(FilterLabel(Get(data, "filter")).value)] + When(page.hasLastUpdate, SetLastUpdate);
    }
  }

  /** The metadata writes happen in the order execution time, record count,
      active filter, last update. */
  lemma MetadataStaged(page: Page, data: JsValue)
    requires Readable(data)
    ensures forall e :: e in UpdateMetadata(page, data).effects ==> 1 <= Stage(e) <= 4
    ensures Staged(UpdateMetadata(page, data).effects)
  {
    var w := Written(page, data);
    WrittenStaged(page, data);
    var m := UpdateMetadata(page, data);
    if !page.hasActiveFilter {
      assert m.effects == w + [] + When(page.hasLastUpdate, SetLastUpdate);
      StagedTail(w, None, page.hasLastUpdate);
    } else {
      var caption := FilterLabel(Get(data, "filter"));
      if caption.Ok? {
        StagedTail(w, Some(caption.value), page.hasLastUpdate);
      }
    }
  }

  /** Written fields followed by an optional label and an optional
      last-updated time stay in stage order. */
  lemma StagedTail(w: seq<Effect>, caption: Option<string>, hasLast: bool)
    requires Staged(w) && forall e :: e in w ==> 1 <= Stage(e) <= 2
    ensures var es := w + (if caption.Some? then [SetActiveFilter(caption.value)] else []) + When(hasLast, SetLastUpdate);
      Staged(es) && forall e :: e in es ==> 1 <= Stage(e) <= 4
  {
    var mid: seq<Effect> := if caption.Some? then [SetActiveFilter(caption.value)] else [];
    var last := When(hasLast, SetLastUpdate);
    StagedAppend(mid, last, 4);
    StagedAppend(w, mid + last, 3);
    assert w + mid + last == w + (mid + last);
  }

  lemma WrittenStaged(page: Page, data: JsValue)
    requires Readable(data)
    ensures forall e :: e in Written(page, data) ==> 1 <= Stage(e) <= 2
    ensures Staged(Written(page, data))
  {
    var first := When(page.hasExecTime, SetExecTime(ExecTimeShown(data)));
    var second := When(page.hasRecordCount, SetRecordCount(RecordCountShown(data)));
    StagedAppend(first, second, 2);
  }

  /** The position of an effect in a load sequence; a load performs its
      effects in strictly increasing stage. */
  function Stage(e: Effect): nat {
    match e
    case Fetch(_) => 0
    case SetExecTime(_) => 1
    case SetRecordCount(_) => 2
    case SetActiveFilter(_) => 3
    case SetLastUpdate => 4
    case RenderBar(_) => 5
    case RenderScatter(_) => 6
    case RenderPie(_) => 7
    case ShowSuccess(_) => 8
    case ShowError(_) => 8
    case DestroyAll => 9
  }

  predicate Staged(es: seq<Effect>) {
    forall i, j :: 0 <= i < j < |es| ==> Stage(es[i]) < Stage(es[j])
  }

  /** A response the loader accepts: present, truthy, with a truthy `success`. */
  predicate Accepted(fetched: Option<JsValue>) {
    fetched.Some? && Truthy(fetched.value) && Truthy(Get(fetched.value, "success"))
  }

  /** The chart renders of an accepted response, each only if its field is
      truthy, in the order bar, scatter, pie. */
  function Renders(data: JsValue): (r: seq<Effect>)
    requires Readable(data)
    ensures forall e :: e in r ==> 5 <= Stage(e) <= 7
    ensures Staged(r)
  {
    var bar := When(Truthy(Get(data, "macronutrients")), RenderBar(Get(data, "macronutrients")));
    var scatter := When(Truthy(Get(data, "scatterData")), RenderScatter(Get(data, "scatterData")));
    var pie := When(Truthy(Get(data, "distribution")), RenderPie(Get(data, "distribution")));
    StagedAppend(bar, scatter, 6);
    StagedAppend(bar + scatter, pie, 7);
    bar + scatter + pie
  }

  /** loadDashboardData(filter), with `fetched` the parsed response, or None
      when the fetch failed. */
  function LoadDashboardData(page: Page, filter: string, fetched: Option<JsValue>): seq<Effect> {
    if !Accepted(fetched) then
      [Fetch(filter), ShowError(FailedToLoad)]
    else
      var data := fetched.value;
      var m := UpdateMetadata(page, data);
      match m.thrown
      case Some(msg) => [Fetch(filter)] + m.effects + [ShowError(LoadErrorPrefix + msg)]
      case None => [Fetch(filter)] + m.effects + Renders(data) + [ShowSuccess(LoadedNotice)]
  }

  /** The stages of two effect lists in disjoint increasing ranges combine. */
  lemma StagedAppend(a: seq<Effect>, b: seq<Effect>, mid: nat)
    requires Staged(a) && Staged(b)
    requires forall e :: e in a ==> Stage(e) < mid
    requires forall e :: e in b ==> mid <= Stage(e)
    ensures Staged(a + b)
  {
    forall i, j | 0 <= i < j < |a + b|
      ensures Stage((a + b)[i]) < Stage((a + b)[j])
    {
      if j < |a| {
      } else if i >= |a| {
        assert (a + b)[i] == b[i - |a|] && (a + b)[j] == b[j - |a|];
      } else {
        assert (a + b)[i] in a && (a + b)[j] in b;
      }
    }
  }

  /** Every load performs its effects in the fixed order: the fetch, the
      metadata fields, the bar, scatter and pie renders, then exactly one
      closing notice; so none is performed twice. */
  lemma LoadIsStaged(page: Page, filter: string, fetched: Option<JsValue>)
    ensures Staged(LoadDashboardData(page, filter, fetched))
  {
    if Accepted(fetched) {
      var data := fetched.value;
      var m := UpdateMetadata(page, data);
      MetadataStaged(page, data);
      StagedAppend([Fetch(filter)], m.effects, 1);
      if m.thrown.Some? {
        StagedAppend([Fetch(filter)] + m.effects, [ShowError(LoadErrorPrefix + m.thrown.value)], 5);
      } else {
        StagedAppend([Fetch(filter)] + m.effects, Renders(data), 5);
        StagedAppend([Fetch(filter)] + m.effects + Renders(data), [ShowSuccess(LoadedNotice)], 8);
      }
    }
  }

  /** A missing response, or one without a truthy `success`, only alerts:
      no metadata, chart or success notice. */
  lemma RejectedOnlyAlerts(page: Page, filter: string, fetched: Option<JsValue>)
    requires !Accepted(fetched)
    ensures LoadDashboardData(page, filter, fetched) == [Fetch(filter), ShowError(FailedToLoad)]
    ensures forall e :: e in LoadDashboardData(page, filter, fetched) ==> Stage(e) == 0 || e == ShowError(FailedToLoad)
  {
  }

  /** An accepted response whose metadata does not throw renders each chart
      exactly when its field is truthy, with that field as its data, and
      closes with the success notice and no alert. */
  lemma AcceptedRendersPresentCharts(page: Page, filter: string, fetched: Option<JsValue>)
    requires Accepted(fetched)
    requires UpdateMetadata(page, fetched.value).thrown.None?
    ensures var r := LoadDashboardData(page, filter, fetched);
      && r[0] == Fetch(filter)
      && r[|r| - 1] == ShowSuccess(LoadedNotice)
      && (forall d :: RenderBar(d) in r <==> Truthy(Get(fetched.value, "macronutrients")) && d == Get(fetched.value, "macronutrients"))
      && (forall d :: RenderScatter(d) in r <==> Truthy(Get(fetched.value, "scatterData")) && d == Get(fetched.value, "scatterData"))
      && (forall d :: RenderPie(d) in r <==> Truthy(Get(fetched.value, "distribution")) && d == Get(fetched.value, "distribution"))
      && (forall a :: ShowError(a) !in r)
  {
    var data := fetched.value;
    var m := UpdateMetadata(page, data);
    var rs := Renders(data);
    MetadataQuiet(page, data);
    RendersContent(data);
    LoadShape(page, filter, fetched);
    ChartEffectsOfMiddle([Fetch(filter)] + m.effects, rs, [ShowSuccess(LoadedNotice)]);
    MetadataStaged(page, data);
    forall a ensures ShowError(a) !in LoadDashboardData(page, filter, fetched) {
      assert ShowError(a) !in m.effects && ShowError(a) !in rs;
    }
  }

  /** The render list holds each chart's render exactly when its field is
      truthy, with that field as the data. */
  lemma RendersContent(data: JsValue)
    requires Readable(data)
    ensures forall d :: RenderBar(d) in Renders(data) <==> Truthy(Get(data, "macronutrients")) && d == Get(data, "macronutrients")
    ensures forall d :: RenderScatter(d) in Renders(data) <==> Truthy(Get(data, "scatterData")) && d == Get(data, "scatterData")
    ensures forall d :: RenderPie(d) in Renders(data) <==> Truthy(Get(data, "distribution")) && d == Get(data, "distribution")
  {
  }

  /** An exception in updateMetadata ends the load with the error alert: the
      fields written before it stay written, and no chart is rendered and no
      success notice shown. */
  lemma ThrowStopsRendering(page: Page, filter: string, fetched: Option<JsValue>)
    requires Accepted(fetched)
    requires UpdateMetadata(page, fetched.value).thrown.Some?
    ensures var r := LoadDashboardData(page, filter, fetched);
      && r == [Fetch(filter)] + UpdateMetadata(page, fetched.value).effects
                + [ShowError(LoadErrorPrefix + UpdateMetadata(page, fetched.value).thrown.value)]
      && (forall e :: e in r ==> Stage(e) <= 2 || e.ShowError?)
      && ShowSuccess(LoadedNotice) !in r
  {
  }

  /** A successful response without `filter` throws in the label after the
      execution time and record count were written. */
  lemma MissingFilterExample()
    ensures var page := Page(true, true, true, true, Some("keto"), true, Canvases(true, true, true));
      var data := Obj(map["success" := Bool(true), "executionTime" := Str("125ms"), "recordCount" := Num(12.0)]);
      LoadDashboardData(page, "keto", Some(data)) ==
        [Fetch("keto"), SetExecTime(Str("125ms")), SetRecordCount(Num(12.0)),
         ShowError(LoadErrorPrefix + UndefinedFilter)]
  {
    var page := Page(true, true, true, true, Some("keto"), true, Canvases(true, true, true));
    var data := Obj(map["success" := Bool(true), "executionTime" := Str("125ms"), "recordCount" := Num(12.0)]);
    assert "filter" !in data.props;
    assert Get(data, "success") == Bool(true);
    assert Get(data, "executionTime") == Str("125ms");
    assert Get(data, "recordCount") == Num(12.0);
    assert Get(data, "filter") == Undefined;
    assert Written(page, data) == [SetExecTime(Str("125ms")), SetRecordCount(Num(12.0))];
  }

  // ----- triggers -----

  /** The events the controller reacts to. */
  datatype Trigger =
    | Startup(healthy: bool)
    | FilterChange(value: string)
    | RefreshClick
    | KeyDown(ctrl: bool, meta: bool, key: string)
    | Online
    | Offline
    | Resize
    | Unload

  /** `document.getElementById('dietFilter')?.value || 'all'`. */
  function CurrentFilter(page: Page): (f: string)
    ensures f != ""
    ensures page.selector.Some? && page.selector.value != "" ==> f == page.selector.value
    ensures page.selector.None? || page.selector.value == "" ==> f == "all"
  {
    match page.selector
    case None => "all"
    case Some(v) => if v == "" then "all" else v
  }

  /** The filter a trigger reloads with, or None when it does not reload. The
      change, click and key listeners exist only once `listening` (startup has
      finished its first load) and only for elements the page holds. */
  function ReloadFilter(page: Page, listening: bool, t: Trigger): (r: Option<string>)
    ensures t.Startup? ==> r == Some("all")
    ensures t.FilterChange? ==> (r.Some? <==> listening && page.selector.Some?) && (r.Some? ==> r.value == t.value)
    ensures t.RefreshClick? ==> (r.Some? <==> listening && page.hasRefresh) && (r.Some? ==> r.value == CurrentFilter(page))
    ensures t.KeyDown? ==> (r.Some? <==> listening && (t.ctrl || t.meta) && t.key == "r") && (r.Some? ==> r.value == CurrentFilter(page))
    ensures t.Online? ==> r == Some(CurrentFilter(page))
    ensures t.Offline? || t.Resize? || t.Unload? ==> r.None?
  {
    match t
    case Startup(_) => Some("all")
    case FilterChange(v) => if listening && page.selector.Some? then Some(v) else None
    case RefreshClick => if listening && page.hasRefresh then Some(CurrentFilter(page)) else None
    case KeyDown(ctrl, meta, key) =>
      if listening && (ctrl || meta) && key == "r" then Some(CurrentFilter(page)) else None
    case Online => Some(CurrentFilter(page))
    case _ => None
  }

  /** What the controller does on a trigger, with `fetched` the response the
      reload (if any) receives. */
  function React(page: Page, listening: bool, t: Trigger, fetched: Option<JsValue>): seq<Effect> {
    var before :=
      match t
      case Startup(healthy) => When(!healthy, ShowError(HealthWarning))
      case Online => [ShowSuccess(RestoredNotice)]
      case Offline => [ShowError(OfflineAlert)]
      case Unload => [DestroyAll]
      case _ => [];
    match ReloadFilter(page, listening, t)
    case None => before
    case Some(f) => before + LoadDashboardData(page, f, fetched)
  }

  /** A failed health check adds a warning in front of the startup load and
      changes nothing else. */
  lemma UnhealthyStartupStillLoads(page: Page, listening: bool, fetched: Option<JsValue>)
    ensures React(page, listening, Startup(false), fetched)
         == [ShowError(HealthWarning)] + React(page, listening, Startup(true), fetched)
    ensures React(page, listening, Startup(true), fetched) == LoadDashboardData(page, "all", fetched)
  {
    var load := LoadDashboardData(page, "all", fetched);
    StartupReaction(page, listening, true, fetched);
    StartupReaction(page, listening, false, fetched);
    assert [] + load == load;
  }

  lemma StartupReaction(page: Page, listening: bool, healthy: bool, fetched: Option<JsValue>)
    ensures React(page, listening, Startup(healthy), fetched)
         == When(!healthy, ShowError(HealthWarning)) + LoadDashboardData(page, "all", fetched)
  {
    assert ReloadFilter(page, listening, Startup(healthy)) == Some("all");
  }

  /** Refresh click, Ctrl/Cmd+R and reconnecting reload the same filter: the
      selector's value, or "all" when there is no selector or it is empty. */
  lemma RefreshTriggersAgree(page: Page, fetched: Option<JsValue>)
    requires page.hasRefresh
    ensures React(page, true, RefreshClick, fetched) == LoadDashboardData(page, CurrentFilter(page), fetched)
    ensures React(page, true, KeyDown(true, false, "r"), fetched) == React(page, true, RefreshClick, fetched)
    ensures React(page, true, KeyDown(false, true, "r"), fetched) == React(page, true, RefreshClick, fetched)
    ensures React(page, true, Online, fetched) == [ShowSuccess(RestoredNotice)] + React(page, true, RefreshClick, fetched)
  {
  }

  /** A filter change reloads with the chosen value as is, even when empty. */
  lemma ChangeUsesValueVerbatim(page: Page, v: string, fetched: Option<JsValue>)
    requires page.selector.Some?
    ensures React(page, true, FilterChange(v), fetched) == LoadDashboardData(page, v, fetched)
    ensures React(page, true, FilterChange(""), fetched)[0] == Fetch("")
  {
  }

  // ----- effects on the chart handles -----

  /** The chart functions are only called with arguments they can read. */
  predicate Callable(e: Effect) {
    && (e.RenderBar? ==> Readable(e.macros))
    && (e.RenderPie? ==> Readable(e.distribution))
  }

  predicate AllCallable(es: seq<Effect>) {
    forall i :: 0 <= i < |es| ==> Callable(es[i])
  }

  /** Only the render effects and the teardown touch the chart handles. */
  predicate ChartEffect(e: Effect) {
    e.RenderBar? || e.RenderScatter? || e.RenderPie? || e.DestroyAll?
  }

  function ApplyEffect(s: ChartState, c: Canvases, e: Effect): (r: ChartState)
    requires Callable(e)
    ensures !ChartEffect(e) ==> r == s
    ensures Valid(s) ==> Valid(r)
  {
    match e
    case RenderBar(d) => CreateBarChart(s, c, d)
    case RenderScatter(d) => CreateScatterPlot(s, c, d)
    case RenderPie(d) => CreatePieChart(s, c, d)
    case DestroyAll => DestroyAllCharts(s)
    case _ => s
  }

  /** The chart state after performing the effects in order. */
  function ApplyEffects(s: ChartState, c: Canvases, es: seq<Effect>): ChartState
    requires AllCallable(es)
    decreases |es|
  {
    if |es| == 0 then s else ApplyEffects(ApplyEffect(s, c, es[0]), c, es[1..])
  }

  lemma {:induction false} ApplyEffectsAppend(s: ChartState, c: Canvases, a: seq<Effect>, b: seq<Effect>)
    requires AllCallable(a) && AllCallable(b)
    ensures AllCallable(a + b)
    ensures ApplyEffects(s, c, a + b) == ApplyEffects(ApplyEffects(s, c, a), c, b)
    decreases |a|
  {
    assert AllCallable(a + b) by {
      forall i | 0 <= i < |a + b| ensures Callable((a + b)[i]) {
        if i >= |a| {
          assert (a + b)[i] == b[i - |a|];
        }
      }
    }
    if |a| > 0 {
      assert (a + b)[0] == a[0];
      assert (a + b)[1..] == a[1..] + b;
      ApplyEffectsAppend(ApplyEffect(s, c, a[0]), c, a[1..], b);
    } else {
      assert a + b == b;
    }
  }

  /** Any sequence of effects keeps the handles and the live charts consistent. */
  lemma {:induction false} EffectsKeepValid(s: ChartState, c: Canvases, es: seq<Effect>)
    requires AllCallable(es) && Valid(s)
    ensures Valid(ApplyEffects(s, c, es))
    decreases |es|
  {
    if |es| > 0 {
      EffectsKeepValid(ApplyEffect(s, c, es[0]), c, es[1..]);
    }
  }

  /** Effects other than renders and teardown leave the charts as they are. */
  lemma {:induction false} OtherEffectsKeepCharts(s: ChartState, c: Canvases, es: seq<Effect>)
    requires forall i :: 0 <= i < |es| ==> !ChartEffect(es[i])
    ensures AllCallable(es)
    ensures ApplyEffects(s, c, es) == s
    decreases |es|
  {
    if |es| > 0 {
      OtherEffectsKeepCharts(s, c, es[1..]);
    }
  }

  /** No effect of the list touches the charts. */
  predicate Quiet(es: seq<Effect>) {
    forall i :: 0 <= i < |es| ==> !ChartEffect(es[i])
  }

  /** The three shapes a load takes. */
  lemma LoadShape(page: Page, filter: string, fetched: Option<JsValue>)
    ensures !Accepted(fetched) ==> LoadDashboardData(page, filter, fetched) == [Fetch(filter), ShowError(FailedToLoad)]
    ensures Accepted(fetched) && UpdateMetadata(page, fetched.value).thrown.Some? ==>
      LoadDashboardData(page, filter, fetched)
        == [Fetch(filter)] + UpdateMetadata(page, fetched.value).effects
           + [ShowError(LoadErrorPrefix + UpdateMetadata(page, fetched.value).thrown.value)]
    ensures Accepted(fetched) && UpdateMetadata(page, fetched.value).thrown.None? ==>
      LoadDashboardData(page, filter, fetched)
        == [Fetch(filter)] + UpdateMetadata(page, fetched.value).effects + Renders(fetched.value)
           + [ShowSuccess(LoadedNotice)]
  {
  }

  lemma MetadataQuiet(page: Page, data: JsValue)
    requires Readable(data)
    ensures forall f :: Quiet([Fetch(f)] + UpdateMetadata(page, data).effects)
  {
    MetadataStaged(page, data);
    EarlyStagesQuiet(UpdateMetadata(page, data).effects);
  }

  /** Effects of the stages before the renders, after a fetch, leave the
      charts alone. */
  lemma EarlyStagesQuiet(es: seq<Effect>)
    requires forall e :: e in es ==> Stage(e) <= 4
    ensures forall f :: Quiet([Fetch(f)] + es)
  {
    forall f, i | 0 <= i < |[Fetch(f)] + es|
      ensures !ChartEffect(([Fetch(f)] + es)[i])
    {
      if i > 0 {
        assert ([Fetch(f)] + es)[i] == es[i - 1];
        assert es[i - 1] in es;
      }
    }
  }

  lemma RendersCallable(data: JsValue)
    requires Readable(data)
    ensures AllCallable(Renders(data))
  {
  }

  /** Between two lists that leave the charts alone, the charts touched are
      those of the middle list. */
  lemma ChartEffectsOfMiddle(pre: seq<Effect>, mid: seq<Effect>, post: seq<Effect>)
    requires Quiet(pre) && Quiet(post)
    ensures forall e :: ChartEffect(e) ==> (e in pre + mid + post <==> e in mid)
  {
    forall e | ChartEffect(e)
      ensures e !in pre && e !in post
    {
      QuietLacks(pre, e);
      QuietLacks(post, e);
    }
  }

  lemma QuietLacks(es: seq<Effect>, e: Effect)
    requires Quiet(es) && ChartEffect(e)
    ensures e !in es
  {
    forall i | 0 <= i < |es|
      ensures es[i] != e
    {
    }
  }

  /** Performing `pre + mid + post` does to the charts what `mid` does, when
      `pre` and `post` leave them alone. */
  lemma ApplyAround(s: ChartState, c: Canvases, pre: seq<Effect>, mid: seq<Effect>, post: seq<Effect>)
    requires Quiet(pre) && Quiet(post) && AllCallable(mid)
    ensures AllCallable(pre + mid + post)
    ensures ApplyEffects(s, c, pre + mid + post) == ApplyEffects(s, c, mid)
  {
    OtherEffectsKeepCharts(s, c, pre);
    OtherEffectsKeepCharts(ApplyEffects(s, c, mid), c, post);
    ApplyEffectsAppend(s, c, pre, mid);
    ApplyEffectsAppend(s, c, pre + mid, post);
  }

  /** Every load calls the chart functions only with readable arguments. */
  lemma LoadIsCallable(page: Page, filter: string, fetched: Option<JsValue>)
    ensures AllCallable(LoadDashboardData(page, filter, fetched))
  {
    LoadShape(page, filter, fetched);
    if Accepted(fetched) {
      var data := fetched.value;
      var m := UpdateMetadata(page, data);
      MetadataQuiet(page, data);
      if m.thrown.Some? {
        ApplyAround(Initial, Canvases(false, false, false), [Fetch(filter)] + m.effects,
                    [ShowError(LoadErrorPrefix + m.thrown.value)], []);
        assert [Fetch(filter)] + m.effects + [ShowError(LoadErrorPrefix + m.thrown.value)] + [] 
            == LoadDashboardData(page, filter, fetched);
      } else {
        RendersCallable(data);
        ApplyAround(Initial, Canvases(false, false, false), [Fetch(filter)] + m.effects,
                    Renders(data), [ShowSuccess(LoadedNotice)]);
      }
    }
  }

  /** A load that is rejected or throws leaves every chart as it was. */
  lemma FailedLoadKeepsCharts(s: ChartState, page: Page, filter: string, fetched: Option<JsValue>)
    requires !Accepted(fetched) || UpdateMetadata(page, fetched.value).thrown.Some?
    ensures AllCallable(LoadDashboardData(page, filter, fetched))
    ensures ApplyEffects(s, page.canvases, LoadDashboardData(page, filter, fetched)) == s
  {
    if Accepted(fetched) {
      ThrowKeepsCharts(s, page, filter, fetched.value);
    } else {
      var r := LoadDashboardData(page, filter, fetched);
      assert r == [Fetch(filter), ShowError(FailedToLoad)];
      OtherEffectsKeepCharts(s, page.canvases, r);
    }
  }

  lemma ThrowKeepsCharts(s: ChartState, page: Page, filter: string, data: JsValue)
    requires Accepted(Some(data)) && UpdateMetadata(page, data).thrown.Some?
    ensures AllCallable(LoadDashboardData(page, filter, Some(data)))
    ensures ApplyEffects(s, page.canvases, LoadDashboardData(page, filter, Some(data))) == s
  {
    var m := UpdateMetadata(page, data);
    var closing := [ShowError(LoadErrorPrefix + m.thrown.value)];
    assert LoadDashboardData(page, filter, Some(data)) == [Fetch(filter)] + m.effects + [] + closing;
    MetadataQuiet(page, data);
    ApplyAround(s, page.canvases, [Fetch(filter)] + m.effects, [], closing);
  }

  /** A successful load whose response carries only `macronutrients` replaces
      the bar chart (when its canvas exists) and leaves the scatter and pie
      charts alone. */
  lemma OnlyMacrosTouchesBar(s: ChartState, page: Page, filter: string, fetched: Option<JsValue>)
    requires Valid(s) && Accepted(fetched)
    requires UpdateMetadata(page, fetched.value).thrown.None?
    requires Truthy(Get(fetched.value, "macronutrients"))
    requires !Truthy(Get(fetched.value, "scatterData")) && !Truthy(Get(fetched.value, "distribution"))
    ensures AllCallable(LoadDashboardData(page, filter, fetched))
    ensures var r := ApplyEffects(s, page.canvases, LoadDashboardData(page, filter, fetched));
      && Valid(r)
      && r.scatter == s.scatter && r.pie == s.pie
      && (page.canvases.hasBar ==> r.bar == Some(Instance(s.nextId, BarConfig(Get(fetched.value, "macronutrients")))))
      && (!page.canvases.hasBar ==> r == s)
  {
    var data := fetched.value;
    var m := UpdateMetadata(page, data);
    var macros := Get(data, "macronutrients");
    LoadShape(page, filter, fetched);
    MetadataQuiet(page, data);
    assert Renders(data) == [RenderBar(macros)];
    ApplyAround(s, page.canvases, [Fetch(filter)] + m.effects, [RenderBar(macros)], [ShowSuccess(LoadedNotice)]);
    assert ApplyEffects(s, page.canvases, [RenderBar(macros)])
        == ApplyEffects(CreateBarChart(s, page.canvases, macros), page.canvases, []);
  }

  /** Leaving the page destroys every chart and leaves no live instance. */
  lemma UnloadClearsCharts(s: ChartState, page: Page, listening: bool, fetched: Option<JsValue>)
    requires Valid(s)
    ensures React(page, listening, Unload, fetched) == [DestroyAll]
    ensures var r := ApplyEffects(s, page.canvases, [DestroyAll]);
      r.bar.None? && r.scatter.None? && r.pie.None? && r.live == map[]
  {
  }
}

=== FILE: endtoend.dfy ===
/** The dashboard and the backend together: the request a load sends, what the
    fetch wrapper hands back for each response status, and what the dashboard
    does with each kind of response `AnalyzeNutrition` produces. */
module EndToEnd {
  import opened Maybe
  import opened Text
  import opened Js
  import opened Frames
  import opened Handler
  import opened Dashboard

  /** `fetch(url)` for `?dietType=<filter>`: a GET with the filter as the only
      query parameter and no body, so `req.get_json()` raises. */
  function RequestFor(filter: string): Request {
    Request(map[DietParam := filter], NotJson)
  }

  /** For a filter the URL carries unchanged (URL encoding is not modelled),
      the filter a load asks for is the filter the backend resolves, except
      that an empty filter reaches the backend as absent and becomes "all". */
  lemma RequestCarriesFilter(filter: string)
    ensures filter != "" ==> ResolveFilter(RequestFor(filter)) == JString(filter)
    ensures filter == "" ==> ResolveFilter(RequestFor(filter)) == JString(AllDiets)
  {
  }

  /** Refresh, Ctrl/Cmd+R and reconnecting never send an empty filter, so the
      backend filters by exactly the filter the dashboard asked for. */
  lemma TriggersSendTheirFilter(page: Page, listening: bool, t: Trigger)
    requires ReloadFilter(page, listening, t).Some? && !t.FilterChange?
    ensures ResolveFilter(RequestFor(ReloadFilter(page, listening, t).value))
         == JString(ReloadFilter(page, listening, t).value)
  {
    assert ReloadFilter(page, listening, t).value != "";
  }

  /** fetchNutritionalInsights: the parsed body of a 2xx response. For any
      other status the wrapper throws; for a body holding a bare `NaN`,
      `response.json()` throws; either way it catches and returns null. */
  function Fetched(resp: HttpResponse, parsed: JsValue): (r: Option<JsValue>)
    ensures r.Some? <==> 200 <= resp.status < 300 && StrictJson(resp.payload)
    ensures r.Some? ==> r.value == parsed
  {
    if 200 <= resp.status < 300 && StrictJson(resp.payload) then Some(parsed) else None
  }

  /** The parsed body of a response carries, under the keys the dashboard
      reads, the values the handler put in the payload. The contents of
      `macronutrients`, `distribution` and `scatterData` are not described
      beyond their JSON kind. */
  predicate Describes(v: JsValue, p: Payload) {
    v.Obj? &&
    match p
    case InsightsPayload(ins) =>
      && Get(v, "success") == Bool(true)
      && Get(v, "executionTime") == Str(ins.executionTime)
      && Get(v, "recordCount") == Num(ins.recordCount as real)
      && Get(v, "filter") == Str(ins.filter)
      && Get(v, "macronutrients").Obj?
      && Get(v, "distribution").Obj?
      && Get(v, "scatterData").Arr?
      && |Get(v, "scatterData").items| == |ins.scatterData|
    case ErrorPayload(e, _) =>
      && Get(v, "success") == Bool(false)
      && Get(v, "error") == Str(e)
    case HealthPayload(h, _, _) =>
      && Get(v, "status") == Str(h)
      && Get(v, "success") == Undefined
  }

  /** A 404 or 500 from the handler, whatever its body, makes the dashboard
      show only the load failure: no metadata, no chart, no success notice. */
  lemma ErrorResponsesOnlyAlert(req: Request, env: Environment, page: Page, filter: string, parsed: JsValue)
    requires Handler.Readable(env) && AnalyzeNutrition(req, env).status != 200
    ensures LoadDashboardData(page, filter, Fetched(AnalyzeNutrition(req, env), parsed))
         == [Fetch(filter), ShowError(FailedToLoad)]
  {
  }

  /** A 200 whose body holds a NaN fails to parse, and the dashboard shows
      only the load failure, exactly as for an error response. */
  lemma NaNResponsesOnlyAlert(req: Request, env: Environment, page: Page, filter: string, parsed: JsValue)
    requires Handler.Readable(env) && AnalyzeNutrition(req, env).status == 200
    requires !NanFree(AnalyzeNutrition(req, env).payload.insights)
    ensures LoadDashboardData(page, filter, Fetched(AnalyzeNutrition(req, env), parsed))
         == [Fetch(filter), ShowError(FailedToLoad)]
  {
  }

  /** A diet type with a single recipe, in a dataset with protein and carbs
      columns, can never be shown: its 200 carries a NaN coefficient. */
  lemma SingleRecipeNeverShown(req: Request, env: Environment, page: Page, filter: string, parsed: JsValue)
    requires Handler.Readable(env) && AnalyzeNutrition(req, env).status == 200
    requires var ins := AnalyzeNutrition(req, env).payload.insights;
             ins.recordCount == 1
             && MacroName(Protein) in ins.availableColumns && MacroName(Carbs) in ins.availableColumns
    ensures LoadDashboardData(page, filter, Fetched(AnalyzeNutrition(req, env), parsed))
         == [Fetch(filter), ShowError(FailedToLoad)]
  {
    SingleRecipeCorrelationIsNaN(req, env);
  }

  /** Loading "all" from the one-recipe dataset with both columns alerts. */
  lemma OneCompleteRecipeAlerts(page: Page, parsed: JsValue)
    ensures Handler.Readable(PairEnv)
    ensures LoadDashboardData(page, AllDiets, Fetched(AnalyzeNutrition(RequestFor(AllDiets), PairEnv), parsed))
         == [Fetch(AllDiets), ShowError(FailedToLoad)]
  {
    assert RequestFor(AllDiets) == AllRequest;
    OneCompleteRecipeExample();
  }

  /** The one-recipe dataset without a carbs column answers with a body
      free of NaN, and a faithful parse of it loads to the success notice. */
  lemma OneRecipeLoads(page: Page, filter: string, v: JsValue)
    requires Handler.Readable(ExampleEnv)
    requires Describes(v, AnalyzeNutrition(ExampleRequest, ExampleEnv).payload)
    ensures var r := LoadDashboardData(page, filter, Fetched(AnalyzeNutrition(ExampleRequest, ExampleEnv), v));
            r[|r| - 1] == ShowSuccess(LoadedNotice)
  {
    OneRecipeExample();
    SuccessRendersAllCharts(ExampleRequest, ExampleEnv, page, filter, v);
  }

  /** A 200 from the handler whose body is free of NaN, parsed faithfully,
      loads completely: the label
      of the filter the backend echoes and its record count (never the
      default 0) are shown, all three charts are rendered from the response
      (an empty scatter list included), and the load ends with the success
      notice. */
  lemma SuccessRendersAllCharts(req: Request, env: Environment, page: Page, filter: string, v: JsValue)
    requires Handler.Readable(env) && AnalyzeNutrition(req, env).status == 200
    requires NanFree(AnalyzeNutrition(req, env).payload.insights)
    requires Describes(v, AnalyzeNutrition(req, env).payload)
    ensures var ins := AnalyzeNutrition(req, env).payload.insights;
      var r := LoadDashboardData(page, filter, Fetched(AnalyzeNutrition(req, env), v));
      && r[|r| - 1] == ShowSuccess(LoadedNotice)
      && RenderBar(Get(v, "macronutrients")) in r
      && RenderScatter(Get(v, "scatterData")) in r
      && RenderPie(Get(v, "distribution")) in r
      && (page.hasRecordCount ==> SetRecordCount(Num(ins.recordCount as real)) in r)
      && (page.hasExecTime ==> SetExecTime(Str(ExecutionTime)) in r)
      && (page.hasActiveFilter ==>
            SetActiveFilter(if ins.filter == AllDiets then "All" else Capitalize(ins.filter)) in r)
  {
    var ins := AnalyzeNutrition(req, env).payload.insights;
    ParsedInsights(req, env, v);
    CompleteLoad(page, filter, v);
    MetadataDefaults(v);
    assert FilterLabel(Get(v, "filter")).value == if ins.filter == AllDiets then "All" else Capitalize(ins.filter);
  }

  /** What the dashboard reads from a faithfully parsed 200 response free of
      NaN: it is accepted, its filter is a string, its chart fields are
      truthy and its record count is positive, so truthy too. */
  lemma ParsedInsights(req: Request, env: Environment, v: JsValue)
    requires Handler.Readable(env) && AnalyzeNutrition(req, env).status == 200
    requires NanFree(AnalyzeNutrition(req, env).payload.insights)
    requires Describes(v, AnalyzeNutrition(req, env).payload)
    ensures Fetched(AnalyzeNutrition(req, env), v) == Some(v)
    ensures Accepted(Some(v)) && Get(v, "filter") == Str(AnalyzeNutrition(req, env).payload.insights.filter)
    ensures Truthy(Get(v, "macronutrients")) && Truthy(Get(v, "scatterData")) && Truthy(Get(v, "distribution"))
    ensures Get(v, "recordCount") == Num(AnalyzeNutrition(req, env).payload.insights.recordCount as real)
    ensures Truthy(Get(v, "recordCount"))
    ensures Get(v, "executionTime") == Str(ExecutionTime)
  {
    CountsDescribeSelection(req, env);
  }

  /** A load of an accepted response with a string filter and truthy chart
      fields writes every metadata field the page has, renders all three
      charts and ends with the success notice. */
  lemma CompleteLoad(page: Page, filter: string, v: JsValue)
    requires Accepted(Some(v)) && Get(v, "filter").Str?
    requires Truthy(Get(v, "macronutrients")) && Truthy(Get(v, "scatterData")) && Truthy(Get(v, "distribution"))
    ensures var r := LoadDashboardData(page, filter, Some(v));
      && r[|r| - 1] == ShowSuccess(LoadedNotice)
      && RenderBar(Get(v, "macronutrients")) in r
      && RenderScatter(Get(v, "scatterData")) in r
      && RenderPie(Get(v, "distribution")) in r
      && (page.hasRecordCount ==> SetRecordCount(RecordCountShown(v)) in r)
      && (page.hasExecTime ==> SetExecTime(ExecTimeShown(v)) in r)
      && (page.hasActiveFilter ==> SetActiveFilter(FilterLabel(Get(v, "filter")).value) in r)
  {
    assert UpdateMetadata(page, v).thrown.None?;
    AcceptedRendersPresentCharts(page, filter, Some(v));
    MetadataWrites(page, v);
    var m := UpdateMetadata(page, v);
    var r := LoadDashboardData(page, filter, Some(v));
    assert r == [Fetch(filter)] + m.effects + Renders(v) + [ShowSuccess(LoadedNotice)];
    forall e | e in m.effects ensures e in r {
    }
  }

  /** The backend echoes the filter the dashboard asked for, "all" standing
      in for the empty filter. */
  lemma BackendEchoesFilter(filter: string, env: Environment)
    requires Handler.Readable(env) && AnalyzeNutrition(RequestFor(filter), env).status == 200
    ensures AnalyzeNutrition(RequestFor(filter), env).payload.insights.filter
         == if filter == "" then AllDiets else filter
  {
    CountsDescribeSelection(RequestFor(filter), env);
    RequestCarriesFilter(filter);
  }

  /** Loading "all" against a backend that answers 200 labels the active
      filter "All"; loading "vegan" labels it "Vegan". */
  lemma EchoedFilterLabels()
    ensures FilterLabel(Str(AllDiets)) == Ok("All")
    ensures FilterLabel(Str("vegan")) == Ok("Vegan")
  {
    FilterLabelExamples();
  }
}

=== FILE: frames.dfy ===
/** The table the nutrition handler works on, as pandas holds it after reading
    the CSV, and the three rewrites the handler applies to it before computing
    anything: header stripping, the diet filter and the macro-column fallback. */
module Frames {
  import opened Maybe
  import opened Text

  /** A parsed CSV field: text, or a number the CSV reader recognised. */
  datatype Cell = TextCell(text: string) | NumberCell(number: real)

  /** One row, a cell per column; `None` is pandas' NaN (an empty field). */
  type Row = seq<Option<Cell>>

  /** A data frame: header names and rows, row `r` holding column `j` at `r[j]`. */
  datatype Frame = Frame(columns: seq<string>, rows: seq<Row>)

  predicate Distinct<T(==)>(s: seq<T>) {
    forall i, j :: 0 <= i < j < |s| ==> s[i] != s[j]
  }

  /** Every row has exactly one cell per column. */
  predicate Aligned(f: Frame) {
    forall r :: 0 <= r < |f.rows| ==> |f.rows[r]| == |f.columns|
  }

  predicate WellFormed(f: Frame) {
    Aligned(f) && Distinct(f.columns)
  }

  /** pandas' `DataFrame.empty`: true when either axis has length zero. */
  predicate IsEmpty(f: Frame) {
    |f.rows| == 0 || |f.columns| == 0
  }

  /** The first position of `x` in `s`. */
  function Find<T(==)>(s: seq<T>, x: T): (r: Option<nat>)
    ensures r.Some? ==> r.value < |s| && s[r.value] == x
    ensures r.Some? ==> forall k :: 0 <= k < r.value ==> s[k] != x
    ensures r.None? <==> x !in s
  {
    if |s| == 0 then None
    else if s[0] == x then Some(0)
    else match Find(s[1..], x)
      case None => None
      case Some(i) => Some(i + 1)
  }

  lemma FindAppend<T>(s: seq<T>, y: T, x: T)
    requires y !in s
    ensures Find(s + [y], x) == if x in s then Find(s, x) else if x == y then Some(|s|) else None
  {
    var t := s + [y];
    assert s <= t;
    if x in s {
      FindInPrefix(s, t, x);
    } else if x == y {
      assert t[|s|] == x;
      forall k | 0 <= k < |s|
        ensures t[k] != x
      {
        assert t[k] == s[k];
      }
    }
  }

  /** A name found in a prefix is found at the same place in the whole. */
  lemma FindInPrefix<T>(s: seq<T>, t: seq<T>, x: T)
    requires s <= t && x in s
    ensures Find(t, x) == Find(s, x)
  {
    var j := Find(s, x).value;
    assert t[j] == s[j];
    var r := Find(t, x).value;
    assert r <= j;
    assert t[r] == s[r];
  }

  /** The cells of column `j`, top to bottom. */
  function ColumnAt(f: Frame, j: nat): seq<Option<Cell>>
    requires Aligned(f) && j < |f.columns|
  {
    seq(|f.rows|, r requires 0 <= r < |f.rows| => f.rows[r][j])
  }

  /** `df[name]`: the cells of the column called `name`, None when there is no
      such column (pandas raises KeyError). */
  function Column(f: Frame, name: string): Option<seq<Option<Cell>>>
    requires Aligned(f)
  {
    match Find(f.columns, name)
    case None => None
    case Some(j) => Some(ColumnAt(f, j))
  }

  /** `df.columns = df.columns.str.strip()`: headers lose surrounding
      whitespace, the cells stay where they are. */
  function StripHeaders(f: Frame): Frame {
    Frame(seq(|f.columns|, i requires 0 <= i < |f.columns| => Strip(f.columns[i])), f.rows)
  }

  // ---------------------------------------------------------------------------
  // The diet filter
  // ---------------------------------------------------------------------------

  const DietType := "Diet_type"

  /** A row survives `df['Diet_type'].str.lower() == diet_filter.lower()` when
      its Diet_type is text equal to the filter up to ASCII case; a NaN or a
      number lower-cases to NaN, which equals nothing. */
  predicate DietMatches(c: Option<Cell>, filter: string) {
    c.Some? && c.value.TextCell? && Lower(c.value.text) == Lower(filter)
  }

  function KeepDiet(rows: seq<Row>, width: nat, k: nat, filter: string): (kept: seq<Row>)
    requires k < width && forall i :: 0 <= i < |rows| ==> |rows[i]| == width
    ensures multiset(kept) <= multiset(rows)
    ensures forall i :: 0 <= i < |kept| ==> |kept[i]| == width && DietMatches(kept[i][k], filter)
    ensures forall i :: 0 <= i < |rows| && DietMatches(rows[i][k], filter) ==>
              multiset(kept)[rows[i]] == multiset(rows)[rows[i]]
  {
    if |rows| == 0 then []
    else
      var rest := KeepDiet(rows[1..], width, k, filter);
      if DietMatches(rows[0][k], filter) then
        KeepHead(rows, width, k, filter, rest);
        [rows[0]] + rest
      else
        DropHead(rows, width, k, filter, rest);
        rest
  }

  /** What `KeepDiet` promises about the rows after the first. */
  ghost predicate KeptFromTail(rows: seq<Row>, width: nat, k: nat, filter: string, rest: seq<Row>)
    requires |rows| > 0 && k < width && forall i :: 0 <= i < |rows| ==> |rows[i]| == width
  {
    && multiset(rest) <= multiset(rows[1..])
    && (forall i :: 0 <= i < |rest| ==> |rest[i]| == width && DietMatches(rest[i][k], filter))
    && (forall i :: 1 <= i < |rows| && DietMatches(rows[i][k], filter) ==>
          multiset(rest)[rows[i]] == multiset(rows[1..])[rows[i]])
  }

  lemma KeepHead(rows: seq<Row>, width: nat, k: nat, filter: string, rest: seq<Row>)
    requires |rows| > 0 && k < width && forall i :: 0 <= i < |rows| ==> |rows[i]| == width
    requires DietMatches(rows[0][k], filter)
    requires KeptFromTail(rows, width, k, filter, rest)
    ensures multiset([rows[0]] + rest) <= multiset(rows)
    ensures forall i :: 0 <= i < |[rows[0]] + rest| ==>
              |([rows[0]] + rest)[i]| == width && DietMatches(([rows[0]] + rest)[i][k], filter)
    ensures forall i :: 0 <= i < |rows| && DietMatches(rows[i][k], filter) ==>
              multiset([rows[0]] + rest)[rows[i]] == multiset(rows)[rows[i]]
  {
    var kept := [rows[0]] + rest;
    assert rows == [rows[0]] + rows[1..];
    assert multiset(rows) == multiset{rows[0]} + multiset(rows[1..]);
    assert multiset(kept) == multiset{rows[0]} + multiset(rest);
    forall i | 0 <= i < |rows| && DietMatches(rows[i][k], filter)
      ensures multiset(kept)[rows[i]] == multiset(rows)[rows[i]]
    {
      if rows[0] in rows[1..] {
        var j :| 0 <= j < |rows[1..]| && rows[1..][j] == rows[0];
        assert rows[j + 1] == rows[0];
      } else {
        assert multiset(rows[1..])[rows[0]] == 0;
      }
      if i > 0 && rows[i] != rows[0] {
        assert rows[i] == rows[1..][i - 1];
      }
    }
  }

  lemma DropHead(rows: seq<Row>, width: nat, k: nat, filter: string, rest: seq<Row>)
    requires |rows| > 0 && k < width && forall i :: 0 <= i < |rows| ==> |rows[i]| == width
    requires !DietMatches(rows[0][k], filter)
    requires KeptFromTail(rows, width, k, filter, rest)
    ensures multiset(rest) <= multiset(rows)
    ensures forall i :: 0 <= i < |rows| && DietMatches(rows[i][k], filter) ==>
              multiset(rest)[rows[i]] == multiset(rows)[rows[i]]
  {
    assert rows == [rows[0]] + rows[1..];
    assert multiset(rows) == multiset{rows[0]} + multiset(rows[1..]);
    forall i | 0 <= i < |rows| && DietMatches(rows[i][k], filter)
      ensures multiset(rest)[rows[i]] == multiset(rows)[rows[i]]
    {
      assert rows[i] != rows[0];
    }
  }

  /** The position of the Diet_type column. */
  function DietIndex(f: Frame): (k: nat)
    requires DietType in f.columns
    ensures k < |f.columns| && f.columns[k] == DietType
  {
    Find(f.columns, DietType).value
  }

  /** `df['Diet_type'].str` needs a column pandas typed as text: one holding at
      least one text value, or no rows at all. A column of numbers and NaN
      only is numeric, and `.str` raises on it. */
  predicate HasStrAccessor(f: Frame)
    requires Aligned(f) && DietType in f.columns
  {
    |f.rows| == 0 || exists r :: 0 <= r < |f.rows| && IsText(f.rows[r][DietIndex(f)])
  }

  predicate IsText(c: Option<Cell>) {
    c.Some? && c.value.TextCell?
  }

  /** `df[df['Diet_type'].str.lower() == diet_filter.lower()]`: the headers
      stay, and the rows kept are exactly those whose Diet_type matches the
      filter ignoring case, each with its full multiplicity. */
  function FilterDiet(f: Frame, filter: string): (g: Frame)
    requires Aligned(f) && DietType in f.columns
    ensures g.columns == f.columns && Aligned(g)
    ensures multiset(g.rows) <= multiset(f.rows)
    ensures forall i :: 0 <= i < |g.rows| ==> DietMatches(g.rows[i][DietIndex(f)], filter)
    ensures forall i :: 0 <= i < |f.rows| && DietMatches(f.rows[i][DietIndex(f)], filter) ==>
              multiset(g.rows)[f.rows[i]] == multiset(f.rows)[f.rows[i]]
  {
    Frame(f.columns, KeepDiet(f.rows, |f.columns|, DietIndex(f), filter))
  }

  // ---------------------------------------------------------------------------
  // The macro-column fallback
  // ---------------------------------------------------------------------------

  datatype Macro = Protein | Carbs | Fat

  /** The canonical column each macronutrient is read from. */
  function MacroName(m: Macro): string {
    match m
    case Protein => "Protein(g)"
    case Carbs => "Carbs(g)"
    case Fat => "Fat(g)"
  }

  /** The fragment the fallback looks for in a lower-cased header. */
  function Keyword(m: Macro): string {
    match m
    case Protein => "protein"
    case Carbs => "carb"
    case Fat => "fat"
  }

  predicate IsMacroName(c: string) {
    c == MacroName(Protein) || c == MacroName(Carbs) || c == MacroName(Fat)
  }

  /** `available_macros` is non-empty. */
  predicate HasMacroColumn(f: Frame) {
    MacroName(Protein) in f.columns || MacroName(Carbs) in f.columns || MacroName(Fat) in f.columns
  }

  /** `df[MacroName(m)] = df[col]` for the column at `src`: overwrite the
      canonical column in place, or append it after the existing ones. */
  function CopyColumn(f: Frame, src: nat, m: Macro): (g: Frame)
    requires Aligned(f) && src < |f.columns|
    ensures Aligned(g) && |g.rows| == |f.rows|
    ensures f.columns <= g.columns
    ensures forall k :: |f.columns| <= k < |g.columns| ==> g.columns[k] == MacroName(m)
  {
    match Find(f.columns, MacroName(m))
    case Some(j) =>
      Frame(f.columns, seq(|f.rows|, r requires 0 <= r < |f.rows| => f.rows[r][j := f.rows[r][src]]))
    case None =>
      Frame(f.columns + [MacroName(m)], seq(|f.rows|, r requires 0 <= r < |f.rows| => f.rows[r] + [f.rows[r][src]]))
  }

  /** One `if '<keyword>' in col.lower(): df[...] = df[col]` test of the loop,
      where `col` is the original header at position `i`. */
  function CopyIfNamed(f: Frame, orig: seq<string>, i: nat, m: Macro): (g: Frame)
    requires Aligned(f) && i < |orig| <= |f.columns|
    ensures Aligned(g) && |g.rows| == |f.rows|
    ensures f.columns <= g.columns
    ensures forall k :: |f.columns| <= k < |g.columns| ==> g.columns[k] == MacroName(m)
  {
    if Contains(Lower(orig[i]), Keyword(m)) then CopyColumn(f, i, m) else f
  }

  /** The loop `for col in df.columns` from the `i`-th original header on; the
      loop walks the headers as they were before it started. */
  function FallbackFrom(f: Frame, orig: seq<string>, i: nat): (g: Frame)
    requires Aligned(f) && i <= |orig| <= |f.columns|
    decreases |orig| - i
    ensures Aligned(g) && |g.rows| == |f.rows|
    ensures f.columns <= g.columns
  {
    if i == |orig| then f
    else FallbackFrom(HeaderTests(f, orig, i), orig, i + 1)
  }

  /** The three keyword tests of one loop iteration, in source order. */
  function HeaderTests(f: Frame, orig: seq<string>, i: nat): (g: Frame)
    requires Aligned(f) && i < |orig| <= |f.columns|
    ensures Aligned(g) && |g.rows| == |f.rows|
    ensures f.columns <= g.columns
  {
    CopyIfNamed(CopyIfNamed(CopyIfNamed(f, orig, i, Protein), orig, i, Carbs), orig, i, Fat)
  }

  /** Lines 82-88: the fallback over all original headers. */
  function ColumnFallback(f: Frame): Frame
    requires Aligned(f)
  {
    FallbackFrom(f, f.columns, 0)
  }

  /** The last of the first `n` headers whose lower-cased name contains `kw`. */
  function LastMatch(names: seq<string>, kw: string, n: nat): (r: Option<nat>)
    requires n <= |names|
    ensures r.Some? ==> r.value < n
  {
    if n == 0 then None
    else if Contains(Lower(names[n - 1]), kw) then Some(n - 1)
    else LastMatch(names, kw, n - 1)
  }

  /** The fallback finds a header exactly when some header before `n`
      mentions the keyword, and the one it finds is the last such header. */
  lemma LastMatchFound(names: seq<string>, kw: string, n: nat)
    requires n <= |names|
    ensures LastMatch(names, kw, n).Some? <==>
              exists k :: 0 <= k < n && Contains(Lower(names[k]), kw)
    ensures LastMatch(names, kw, n).Some? ==>
              var k := LastMatch(names, kw, n).value;
              Contains(Lower(names[k]), kw) &&
              forall k' :: k < k' < n ==> !Contains(Lower(names[k']), kw)
  {
    LastMatchExists(names, kw, n);
    LastMatchIsLast(names, kw, n);
  }

  lemma {:induction false} LastMatchExists(names: seq<string>, kw: string, n: nat)
    requires n <= |names|
    ensures LastMatch(names, kw, n).Some? <==>
              exists k :: 0 <= k < n && Contains(Lower(names[k]), kw)
  {
    if n > 0 {
      LastMatchExists(names, kw, n - 1);
    }
  }

  lemma {:induction false} LastMatchIsLast(names: seq<string>, kw: string, n: nat)
    requires n <= |names|
    ensures LastMatch(names, kw, n).Some? ==>
              var k := LastMatch(names, kw, n).value;
              Contains(Lower(names[k]), kw) &&
              forall k' :: k < k' < n ==> !Contains(Lower(names[k']), kw)
  {
    if n > 0 {
      LastMatchIsLast(names, kw, n - 1);
    }
  }

  /** What the fallback promises for macro `m` once headers `0..i-1` are done. */
  predicate MacroInv(f0: Frame, g: Frame, i: nat, m: Macro)
    requires Aligned(f0) && Aligned(g) && i <= |f0.columns|
  {
    Column(g, MacroName(m)) ==
      match LastMatch(f0.columns, Keyword(m), i)
      case None => None
      case Some(k) => Some(ColumnAt(f0, k))
  }

  predicate FallbackInv(f0: Frame, g: Frame, i: nat)
    requires Aligned(f0) && i <= |f0.columns|
  {
    && WellFormed(g)
    && |g.rows| == |f0.rows|
    && f0.columns <= g.columns
    && (forall k :: 0 <= k < |f0.columns| ==> ColumnAt(g, k) == ColumnAt(f0, k))
    && (forall k :: |f0.columns| <= k < |g.columns| ==> IsMacroName(g.columns[k]))
    && MacroInv(f0, g, i, Protein) && MacroInv(f0, g, i, Carbs) && MacroInv(f0, g, i, Fat)
  }

  /** Copying into `m` changes the column called `MacroName(m)` to the source
      column and leaves every other named column, and the first columns, alone. */
  lemma CopyColumnEffect(g: Frame, src: nat, m: Macro)
    requires WellFormed(g) && src < |g.columns|
    ensures WellFormed(CopyColumn(g, src, m))
    ensures Column(CopyColumn(g, src, m), MacroName(m)) == Some(ColumnAt(g, src))
    ensures forall c :: c != MacroName(m) ==> Column(CopyColumn(g, src, m), c) == Column(g, c)
    ensures forall k :: 0 <= k < |g.columns| && g.columns[k] != MacroName(m) ==>
              ColumnAt(CopyColumn(g, src, m), k) == ColumnAt(g, k)
  {
    match Find(g.columns, MacroName(m))
    case Some(j) => CopyInPlace(g, src, m, j);
    case None => CopyAppended(g, src, m);
  }

  /** Every column of a frame whose columns and cells are those of `g` with
      column `j` replaced by column `src` is that of `g`, except column `j`. */
  lemma ReplacedCells(g: Frame, h: Frame, src: nat, j: nat)
    requires Aligned(g) && src < |g.columns| && j < |g.columns|
    requires h.columns == g.columns
    requires h.rows == seq(|g.rows|, r requires 0 <= r < |g.rows| => g.rows[r][j := g.rows[r][src]])
    ensures Aligned(h)
    ensures ColumnAt(h, j) == ColumnAt(g, src)
    ensures forall k :: 0 <= k < |g.columns| && k != j ==> ColumnAt(h, k) == ColumnAt(g, k)
  {
  }

  lemma CopyInPlace(g: Frame, src: nat, m: Macro, j: nat)
    requires WellFormed(g) && src < |g.columns| && Find(g.columns, MacroName(m)) == Some(j)
    ensures WellFormed(CopyColumn(g, src, m))
    ensures Column(CopyColumn(g, src, m), MacroName(m)) == Some(ColumnAt(g, src))
    ensures forall c :: c != MacroName(m) ==> Column(CopyColumn(g, src, m), c) == Column(g, c)
    ensures forall k :: 0 <= k < |g.columns| && g.columns[k] != MacroName(m) ==>
              ColumnAt(CopyColumn(g, src, m), k) == ColumnAt(g, k)
  {
    var h := CopyColumn(g, src, m);
    ReplacedCells(g, h, src, j);
    forall c | c != MacroName(m)
      ensures Column(h, c) == Column(g, c)
    {
      match Find(g.columns, c)
      case None =>
      case Some(k) => assert k != j;
    }
  }

  /** Every column of a frame whose columns and cells are those of `g` with
      column `src` appended is that of `g`, and the new one is column `src`. */
  lemma AppendedCells(g: Frame, h: Frame, src: nat, name: string)
    requires Aligned(g) && src < |g.columns|
    requires h.columns == g.columns + [name]
    requires h.rows == seq(|g.rows|, r requires 0 <= r < |g.rows| => g.rows[r] + [g.rows[r][src]])
    ensures Aligned(h)
    ensures ColumnAt(h, |g.columns|) == ColumnAt(g, src)
    ensures forall k :: 0 <= k < |g.columns| ==> ColumnAt(h, k) == ColumnAt(g, k)
  {
  }

  lemma CopyAppended(g: Frame, src: nat, m: Macro)
    requires WellFormed(g) && src < |g.columns| && Find(g.columns, MacroName(m)).None?
    ensures WellFormed(CopyColumn(g, src, m))
    ensures Column(CopyColumn(g, src, m), MacroName(m)) == Some(ColumnAt(g, src))
    ensures forall c :: c != MacroName(m) ==> Column(CopyColumn(g, src, m), c) == Column(g, c)
    ensures forall k :: 0 <= k < |g.columns| ==> ColumnAt(CopyColumn(g, src, m), k) == ColumnAt(g, k)
  {
    var h := CopyColumn(g, src, m);
    AppendedCells(g, h, src, MacroName(m));
    FindAppend(g.columns, MacroName(m), MacroName(m));
    DistinctAppend(g.columns, MacroName(m));
    forall c | c != MacroName(m)
      ensures Column(h, c) == Column(g, c)
    {
      FindAppend(g.columns, MacroName(m), c);
    }
  }

  lemma DistinctAppend<T>(s: seq<T>, x: T)
    requires Distinct(s) && x !in s
    ensures Distinct(s + [x])
  {
    var t := s + [x];
    forall i, j | 0 <= i < j < |t|
      ensures t[i] != t[j]
    {
      if j == |s| {
        assert t[i] == s[i];
      }
    }
  }

  lemma CopyIfNamedStep(f0: Frame, g: Frame, i: nat, m: Macro)
    requires Aligned(f0) && i < |f0.columns|
    requires MacroName(Protein) !in f0.columns && MacroName(Carbs) !in f0.columns && MacroName(Fat) !in f0.columns
    requires WellFormed(g) && |g.rows| == |f0.rows|
    requires f0.columns <= g.columns
    requires forall k :: 0 <= k < |f0.columns| ==> ColumnAt(g, k) == ColumnAt(f0, k)
    requires forall k :: |f0.columns| <= k < |g.columns| ==> IsMacroName(g.columns[k])
    ensures var h := CopyIfNamed(g, f0.columns, i, m);
      && WellFormed(h) && |h.rows| == |f0.rows|
      && f0.columns <= h.columns
      && (forall k :: 0 <= k < |f0.columns| ==> ColumnAt(h, k) == ColumnAt(f0, k))
      && (forall k :: |f0.columns| <= k < |h.columns| ==> IsMacroName(h.columns[k]))
      && (forall c :: c != MacroName(m) ==> Column(h, c) == Column(g, c))
      && Column(h, MacroName(m)) ==
           if Contains(Lower(f0.columns[i]), Keyword(m)) then Some(ColumnAt(f0, i))
           else Column(g, MacroName(m))
  {
    if Contains(Lower(f0.columns[i]), Keyword(m)) {
      var h := CopyColumn(g, i, m);
      assert CopyIfNamed(g, f0.columns, i, m) == h;
      CopyColumnEffect(g, i, m);
      forall k | 0 <= k < |f0.columns|
        ensures ColumnAt(h, k) == ColumnAt(f0, k)
      {
        assert g.columns[k] == f0.columns[k];
      }
      forall k | |f0.columns| <= k < |h.columns|
        ensures IsMacroName(h.columns[k])
      {
      }
    }
  }

  /** The invariant, once established for the first `i` headers, holds for
      the result `r` of running the loop over the rest. */
  lemma {:induction false} FallbackFromInv(f0: Frame, g: Frame, i: nat, r: Frame)
    requires WellFormed(f0) && !HasMacroColumn(f0) && i <= |f0.columns|
    requires FallbackInv(f0, g, i)
    requires r == FallbackFrom(g, f0.columns, i)
    decreases |f0.columns| - i
    ensures FallbackInv(f0, r, |f0.columns|)
  {
    if i < |f0.columns| {
      var h := HeaderTests(g, f0.columns, i);
      assert r == FallbackFrom(h, f0.columns, i + 1);
      HeaderStep(f0, g, i);
      FallbackFromInv(f0, h, i + 1, r);
    } else {
      assert r == g;
    }
  }

  /** The three tests on header `i` carry the invariant from `i` to `i + 1`. */
  lemma HeaderStep(f0: Frame, g: Frame, i: nat)
    requires WellFormed(f0) && !HasMacroColumn(f0) && i < |f0.columns|
    requires FallbackInv(f0, g, i)
    ensures FallbackInv(f0, HeaderTests(g, f0.columns, i), i + 1)
  {
    var g1 := CopyIfNamed(g, f0.columns, i, Protein);
    CopyIfNamedStep(f0, g, i, Protein);
    var g2 := CopyIfNamed(g1, f0.columns, i, Carbs);
    CopyIfNamedStep(f0, g1, i, Carbs);
    var g3 := CopyIfNamed(g2, f0.columns, i, Fat);
    CopyIfNamedStep(f0, g2, i, Fat);
    assert Column(g3, MacroName(Protein)) == Column(g1, MacroName(Protein));
    MacroStep(f0, g, g3, i, Protein);
    assert Column(g3, MacroName(Carbs)) == Column(g2, MacroName(Carbs));
    MacroStep(f0, g1, g3, i, Carbs);
    MacroStep(f0, g2, g3, i, Fat);
  }

  /** The column of `m` after header `i` is that header's column when the
      header names `m`, and otherwise what it was before. */
  lemma MacroStep(f0: Frame, g: Frame, h: Frame, i: nat, m: Macro)
    requires Aligned(f0) && Aligned(g) && Aligned(h) && i < |f0.columns|
    requires MacroInv(f0, g, i, m)
    requires Column(h, MacroName(m)) ==
               if Contains(Lower(f0.columns[i]), Keyword(m)) then Some(ColumnAt(f0, i))
               else Column(g, MacroName(m))
    ensures MacroInv(f0, h, i + 1, m)
  {
  }

  /** Lines 80-89: when none of the canonical macro columns exists, every
      canonical column `m` afterwards exists exactly when some original header
      contains its keyword ignoring case, and holds a copy of the LAST such
      column; the original columns keep their names, places and cells. */
  lemma ColumnFallbackSpec(f: Frame, m: Macro)
    requires WellFormed(f) && !HasMacroColumn(f)
    ensures WellFormed(ColumnFallback(f)) && |ColumnFallback(f).rows| == |f.rows|
    ensures f.columns <= ColumnFallback(f).columns
    ensures forall k :: 0 <= k < |f.columns| ==> ColumnAt(ColumnFallback(f), k) == ColumnAt(f, k)
    ensures forall c :: c in ColumnFallback(f).columns && c !in f.columns ==> IsMacroName(c)
    ensures MacroName(m) in ColumnFallback(f).columns <==>
              exists k :: 0 <= k < |f.columns| && Contains(Lower(f.columns[k]), Keyword(m))
    ensures Column(ColumnFallback(f), MacroName(m)) ==
              match LastMatch(f.columns, Keyword(m), |f.columns|)
              case None => None
              case Some(k) => Some(ColumnAt(f, k))
  {
    assert FallbackInv(f, f, 0);
    FallbackFromInv(f, f, 0, ColumnFallback(f));
    LastMatchFound(f.columns, Keyword(m), |f.columns|);
    var g := ColumnFallback(f);
    forall c | c in g.columns && c !in f.columns
      ensures IsMacroName(c)
    {
      var k :| 0 <= k < |g.columns| && g.columns[k] == c;
    }
    assert MacroInv(f, g, |f.columns|, m) by {
      match m
      case Protein =>
      case Carbs =>
      case Fat =>
    }
  }
}

=== FILE: handler.dfy ===
/** The two HTTP functions of the backend: `AnalyzeNutrition`, which filters
    the recipe dataset by diet and returns the figures the dashboard plots, and
    `health_check`. Blob download and CSV parsing are inputs here: the
    environment carries the storage setting, the parsed frame (or the text of
    the exception reading it raised) and the random draw behind `df.sample`. */
module Handler {
  import opened Maybe
  import opened Text
  import opened Frames
  import opened Analysis

  // ---------------------------------------------------------------------------
  // Requests
  // ---------------------------------------------------------------------------

  /** A JSON value as Python's `json` module decodes it. */
  datatype Json =
    | JNull
    | JBool(b: bool)
    | JInt(i: int)
    | JFloat(x: real)
    | JString(s: string)
    | JArray(items: seq<Json>)
    | JObject(fields: map<string, Json>)

  /** What `req.get_json()` sees: a body that is not JSON makes it raise. */
  datatype Body = NotJson | JsonBody(json: Json)

  datatype Request = Request(params: map<string, string>, body: Body)

  /** The handler's surroundings: the `AzureWebJobsStorage` setting, the frame
      read from `diets-data/diets_dataset.csv` or the text of the exception the
      download or the CSV reader raised, and the draw behind `df.sample`. */
  datatype Environment = Environment(storage: Option<string>, dataset: Result<Frame>, draw: seq<nat>)

  const DietParam := "dietType"
  const AllDiets := "all"

  /** The value of `dietType` in the query string, `""` standing for absent
      (both are falsy to `if not diet_filter`). */
  function QueryFilter(req: Request): string {
    if DietParam in req.params then req.params[DietParam] else ""
  }

  /** The body is a JSON object with a `dietType` key. */
  predicate HasBodyFilter(req: Request) {
    req.body.JsonBody? && req.body.json.JObject? && DietParam in req.body.json.fields
  }

  /** Lines 21-27. A non-empty query parameter wins; otherwise the body's
      `dietType` key, whatever JSON value it holds; `'all'` when the body is not
      JSON, is JSON but not an object (`.get` raises), or lacks the key. */
  function ResolveFilter(req: Request): (f: Json)
    ensures QueryFilter(req) != "" ==> f == JString(QueryFilter(req))
    ensures QueryFilter(req) == "" && HasBodyFilter(req) ==> f == req.body.json.fields[DietParam]
    ensures QueryFilter(req) == "" && !HasBodyFilter(req) ==> f == JString(AllDiets)
  {
    if QueryFilter(req) != "" then JString(QueryFilter(req))
    else match req.body
      case JsonBody(JObject(fields)) => if DietParam in fields then fields[DietParam] else JString(AllDiets)
      case _ => JString(AllDiets)
  }

  // ---------------------------------------------------------------------------
  // Responses
  // ---------------------------------------------------------------------------

  datatype Macronutrients = Macronutrients(
    dietTypes: seq<Cell>, protein: seq<GroupMean>, carbs: seq<GroupMean>, fat: seq<GroupMean>)

  /** One entry of the `correlations` object. */
  datatype Coefficient = Coefficient(pair: string, value: FloatKind)

  /** The JSON object of a 200 response. */
  datatype Insights = Insights(
    recordCount: nat,
    executionTime: string,
    filter: string,
    macronutrients: Macronutrients,
    distribution: Distribution,
    scatterData: seq<ScatterPoint>,
    correlations: seq<Coefficient>,
    availableColumns: seq<string>)

  datatype Payload =
    | InsightsPayload(insights: Insights)
    | ErrorPayload(error: string, message: Option<string>)
    | HealthPayload(health: string, note: string, version: string)

  datatype HttpResponse = HttpResponse(status: int, payload: Payload, headers: map<string, string>)

  /** Every float of the insights is a number: no group mean or coefficient
      is NaN and no scatter point carries a NaN recipe label. */
  predicate NanFree(ins: Insights) {
    && (forall g :: g in ins.macronutrients.protein ==> g.value == Finite)
    && (forall g :: g in ins.macronutrients.carbs ==> g.value == Finite)
    && (forall g :: g in ins.macronutrients.fat ==> g.value == Finite)
    && (forall c :: c in ins.correlations ==> c.value == Finite)
    && (forall p :: p in ins.scatterData ==> p.recipe.Some?)
  }

  /** `json.dumps` writes a NaN as the bare token `NaN`, which is not JSON:
      a strict parser accepts the body only when it holds no NaN. */
  predicate StrictJson(p: Payload) {
    p.InsightsPayload? ==> NanFree(p.insights)
  }

  /** The `success` key of the body, absent from the health response. */
  function SuccessFlag(p: Payload): Option<bool> {
    match p
    case InsightsPayload(_) => Some(true)
    case ErrorPayload(_, _) => Some(false)
    case HealthPayload(_, _, _) => None
  }

  const AllowOrigin := map["Access-Control-Allow-Origin" := "*"]
  const CorsHeaders := AllowOrigin
    + map["Access-Control-Allow-Methods" := "GET, POST, OPTIONS",
          "Access-Control-Allow-Headers" := "Content-Type"]

  const StorageMissing := "AzureWebJobsStorage connection string not found"
  const ProcessFailure := "Failed to process nutritional data"
  const NotFoundPrefix := "No data found for diet type: "
  const ExecutionTime := "125ms"
  const ProteinCarbs := "protein_carbs"

  /** Python's `str(KeyError(name))`. */
  function KeyErrorText(name: string): string {
    "'" + name + "'"
  }

  /** Python's type name of a decoded JSON value. */
  function TypeName(j: Json): string {
    match j
    case JNull => "NoneType"
    case JBool(_) => "bool"
    case JInt(_) => "int"
    case JFloat(_) => "float"
    case JString(_) => "str"
    case JArray(_) => "list"
    case JObject(_) => "dict"
  }

  /** The AttributeError of `.str` on a column pandas did not type as text. */
  const StrAccessorText := "Can only use .str accessor with string values!"

  /** The AttributeError of calling `.lower()` on a filter that is not a string. */
  function NoLowerText(j: Json): string {
    "'" + TypeName(j) + "' object has no attribute 'lower'"
  }

  // ---------------------------------------------------------------------------
  // The handler
  // ---------------------------------------------------------------------------

  /** The dataset reads into a frame whose rows match its header and whose
      headers stay distinct once stripped. */
  predicate Readable(env: Environment) {
    env.dataset.Ok? ==> Aligned(env.dataset.value) && Distinct(StripHeaders(env.dataset.value).columns)
  }

  /** The filter as a string, and the frame left once it is applied. */
  datatype Selection = Selection(filter: string, frame: Frame)

  /** Lines 21-61: resolve the filter, read the dataset, strip the headers and
      filter unless the filter is exactly `'all'`. Filtering evaluates
      `df['Diet_type']`, then `.str`, then `diet_filter.lower()`, and each
      can raise in turn. */
  function Select(req: Request, env: Environment): (r: Result<Selection>)
    requires Readable(env)
    ensures r.Ok? ==> WellFormed(r.value.frame) && ResolveFilter(req) == JString(r.value.filter)
  {
    var filter := ResolveFilter(req);
    if env.storage.None? || env.storage.value == "" then Err(StorageMissing)
    else match env.dataset
      case Err(e) => Err(e)
      case Ok(raw) =>
        var df := StripHeaders(raw);
        if filter == JString(AllDiets) then Ok(Selection(AllDiets, df))
        else if DietType !in df.columns then Err(KeyErrorText(DietType))
        else if !HasStrAccessor(df) then Err(StrAccessorText)
        else if !filter.JString? then Err(NoLowerText(filter))
        else Ok(Selection(filter.s, FilterDiet(df, filter.s)))
  }

  /** The frame the statistics are computed on: the fallback runs only when
      none of the canonical macro columns exists. */
  function WithMacros(f: Frame): Frame
    requires Aligned(f)
  {
    if HasMacroColumn(f) then f else ColumnFallback(f)
  }

  /** Lines 75-153, on a frame with at least one row. */
  function Analyse(sel: Selection, draw: seq<nat>): (r: Result<HttpResponse>)
    requires WellFormed(sel.frame)
    ensures r.Ok? ==> r.value.status == 200 && r.value.payload.InsightsPayload?
  {
    var df := WithMacros(sel.frame);
    if DietType !in df.columns then Err(KeyErrorText(DietType))
    else
      var dist := Tally(ColumnAt(df, DietIndex(df)));
      match ScatterData(df, draw)
      case Err(e) => Err(e)
      case Ok(points) =>
        var correlations := match (Find(df.columns, MacroName(Protein)), Find(df.columns, MacroName(Carbs)))
          case (Some(pc), Some(cc)) => [Coefficient(ProteinCarbs, Correlation(df, pc, cc))]
          case _ => [];
        var macros := Macronutrients(dist.labels,
          Means(dist.labels, df, Protein), Means(dist.labels, df, Carbs), Means(dist.labels, df, Fat));
        Ok(HttpResponse(200, InsightsPayload(Insights(
          |df.rows|, ExecutionTime, sel.filter, macros, dist, points,
          correlations, df.columns)), CorsHeaders))
  }

  function NotFound(filter: string): HttpResponse {
    HttpResponse(404, ErrorPayload(NotFoundPrefix + filter, None), map[])
  }

  /** Everything inside the `try` of lines 19-153; `Err` is an exception. */
  function Process(req: Request, env: Environment): Result<HttpResponse>
    requires Readable(env)
  {
    match Select(req, env)
    case Err(e) => Err(e)
    case Ok(sel) => if IsEmpty(sel.frame) then Ok(NotFound(sel.filter)) else Analyse(sel, env.draw)
  }

  /** `AnalyzeNutrition`: the `except` of lines 155-170 turns every exception
      into a 500 response. */
  function AnalyzeNutrition(req: Request, env: Environment): (resp: HttpResponse)
    requires Readable(env)
    ensures resp.status in {200, 404, 500}
    ensures resp.status == 200 <==> resp.payload.InsightsPayload?
    ensures SuccessFlag(resp.payload) == Some(resp.status == 200)
  {
    match Process(req, env)
    case Ok(r) => r
    case Err(e) => HttpResponse(500, ErrorPayload(e, Some(ProcessFailure)), AllowOrigin)
  }

  /** `health_check`: whatever the request, 200 and `healthy`. */
  function HealthCheck(req: Request): (resp: HttpResponse)
    ensures resp.status == 200 && resp.payload.HealthPayload? && resp.payload.health == "healthy"
    ensures SuccessFlag(resp.payload).None? && resp.headers == AllowOrigin
  {
    HttpResponse(200, HealthPayload("healthy", "Diet Analysis API is running", "1.0.0"), AllowOrigin)
  }

  // ---------------------------------------------------------------------------
  // Properties of the handler
  // ---------------------------------------------------------------------------

  /** The Diet_type cells of a frame. */
  function DietCells(f: Frame): seq<Option<Cell>>
    requires Aligned(f) && DietType in f.columns
  {
    ColumnAt(f, DietIndex(f))
  }

  /** The fallback neither adds nor changes a Diet_type column. */
  lemma WithMacrosKeepsDiet(f: Frame)
    requires WellFormed(f)
    ensures |WithMacros(f).rows| == |f.rows|
    ensures DietType in WithMacros(f).columns <==> DietType in f.columns
    ensures DietType in f.columns ==> DietCells(WithMacros(f)) == DietCells(f)
  {
    if !HasMacroColumn(f) {
      var g := ColumnFallback(f);
      ColumnFallbackSpec(f, Protein);
      if DietType in f.columns {
        FindInPrefix(f.columns, g.columns, DietType);
      }
    }
  }

  /** A 200 response is the analysis of a non-empty selection. */
  lemma OkCase(req: Request, env: Environment)
    requires Readable(env) && AnalyzeNutrition(req, env).status == 200
    ensures Select(req, env).Ok? && !IsEmpty(Select(req, env).value.frame)
    ensures Analyse(Select(req, env).value, env.draw) == Ok(AnalyzeNutrition(req, env))
  {
  }

  /** Lines 63-72: the response is 404 exactly when the selection read and
      filtered fine but left no rows; it then carries `success: false` and the
      message naming the filter, and nothing else. */
  lemma NotFoundWhenNothingLeft(req: Request, env: Environment)
    requires Readable(env)
    ensures AnalyzeNutrition(req, env).status == 404 <==>
              Select(req, env).Ok? && IsEmpty(Select(req, env).value.frame)
    ensures AnalyzeNutrition(req, env).status == 404 ==>
              ResolveFilter(req) == JString(Select(req, env).value.filter) &&
              AnalyzeNutrition(req, env) ==
                HttpResponse(404, ErrorPayload(NotFoundPrefix + Select(req, env).value.filter, None), map[])
  {
  }

  /** Lines 155-170: any exception becomes a 500 response carrying its text and
      the fixed message; nothing else is a 500. */
  lemma ExceptionsBecomeServerErrors(req: Request, env: Environment)
    requires Readable(env)
    ensures AnalyzeNutrition(req, env).status == 500 <==> Process(req, env).Err?
    ensures Process(req, env).Err? ==>
              AnalyzeNutrition(req, env) ==
                HttpResponse(500, ErrorPayload(Process(req, env).message, Some(ProcessFailure)), AllowOrigin)
  {
  }

  /** Lines 32-34: without a storage setting the request fails with 500 before
      the filter or the data matter. */
  lemma MissingStorageFails(req: Request, env: Environment)
    requires Readable(env) && (env.storage.None? || env.storage.value == "")
    ensures AnalyzeNutrition(req, env) ==
              HttpResponse(500, ErrorPayload(StorageMissing, Some(ProcessFailure)), AllowOrigin)
  {
  }

  /** A body filter that is not a string fails with 500 once the data was
      read and has a Diet_type column: at `.str` when that column is not
      text, and otherwise at `.lower()` on line 60. */
  lemma NonStringFilterFails(req: Request, env: Environment)
    requires Readable(env) && env.storage.Some? && env.storage.value != "" && env.dataset.Ok?
    requires DietType in StripHeaders(env.dataset.value).columns
    requires !ResolveFilter(req).JString?
    ensures var message :=
              if HasStrAccessor(StripHeaders(env.dataset.value)) then NoLowerText(ResolveFilter(req))
              else StrAccessorText;
            AnalyzeNutrition(req, env) == HttpResponse(500, ErrorPayload(message, Some(ProcessFailure)), AllowOrigin)
  {
  }

  /** Line 60: any filter but `'all'` over a Diet_type column that holds rows
      but no text fails with 500 at `.str`, before the match is tried, so
      such a dataset never answers 404. */
  lemma NoTextDietFails(req: Request, env: Environment)
    requires Readable(env) && env.storage.Some? && env.storage.value != "" && env.dataset.Ok?
    requires ResolveFilter(req) != JString(AllDiets)
    requires var df := StripHeaders(env.dataset.value);
             DietType in df.columns && |df.rows| > 0
             && forall r :: 0 <= r < |df.rows| ==> !IsText(df.rows[r][DietIndex(df)])
    ensures AnalyzeNutrition(req, env) == HttpResponse(500, ErrorPayload(StrAccessorText, Some(ProcessFailure)), AllowOrigin)
  {
  }

  /** Lines 59-60: the exact filter `'all'` keeps every row, and any other
      string keeps exactly the rows whose Diet_type equals it ignoring case. */
  lemma SelectionFiltersByDiet(req: Request, env: Environment)
    requires Readable(env) && Select(req, env).Ok?
    ensures var sel := Select(req, env).value;
            var df := StripHeaders(env.dataset.value);
            && (sel.filter == AllDiets ==> sel.frame == df)
            && (sel.filter != AllDiets ==>
                  && DietType in df.columns && sel.frame.columns == df.columns
                  && multiset(sel.frame.rows) <= multiset(df.rows)
                  && (forall i :: 0 <= i < |sel.frame.rows| ==> DietMatches(sel.frame.rows[i][DietIndex(df)], sel.filter))
                  && (forall i :: 0 <= i < |df.rows| && DietMatches(df.rows[i][DietIndex(df)], sel.filter) ==>
                        multiset(sel.frame.rows)[df.rows[i]] == multiset(df.rows)[df.rows[i]]))
  {
  }

  /** Lines 95, 124, 133-136: `recordCount` is the number of rows left after
      filtering (never zero), and the distribution counts that same selection:
      one positive count per distinct Diet_type, summing to the rows that have
      one. The macronutrient groups are the same set of diet types. */
  lemma CountsDescribeSelection(req: Request, env: Environment)
    requires Readable(env) && AnalyzeNutrition(req, env).status == 200
    ensures var sel := Select(req, env).value;
            var ins := AnalyzeNutrition(req, env).payload.insights;
            && ins.recordCount == |sel.frame.rows| > 0
            && ins.filter == sel.filter && ins.executionTime == ExecutionTime
            && DietType in sel.frame.columns
            && CountsColumn(ins.distribution, DietCells(sel.frame))
            && forall c :: c in ins.macronutrients.dietTypes <==> c in ins.distribution.labels
  {
    OkCase(req, env);
    var sel := Select(req, env).value;
    WithMacrosKeepsDiet(sel.frame);
    TallyCounts(DietCells(sel.frame));
  }

  /** Every row of the frame has a Diet_type value. */
  predicate DietTyped(f: Frame) {
    Aligned(f) && DietType in f.columns && forall r :: 0 <= r < |f.rows| ==> f.rows[r][DietIndex(f)].Some?
  }

  /** Lines 124 and 135: when every row of the dataset has a diet type, the
      recipe counts add up to `recordCount`. */
  lemma CountsSumToRecordCount(req: Request, env: Environment)
    requires Readable(env) && AnalyzeNutrition(req, env).status == 200
    requires env.dataset.Ok? && DietTyped(StripHeaders(env.dataset.value))
    ensures Sum(AnalyzeNutrition(req, env).payload.insights.distribution.counts)
         == AnalyzeNutrition(req, env).payload.insights.recordCount
  {
    CountsDescribeSelection(req, env);
    SelectionFiltersByDiet(req, env);
    var sel := Select(req, env).value;
    var df := StripHeaders(env.dataset.value);
    if sel.filter != AllDiets {
      SubRowsTyped(df, sel.frame);
    }
    FullColumnSum(AnalyzeNutrition(req, env).payload.insights.distribution, DietCells(sel.frame));
  }

  /** Lines 60 and 135: under any filter but `'all'` every selected row
      matched, so it has a diet type, and the recipe counts add up to
      `recordCount` whatever the rest of the dataset holds. */
  lemma FilteredCountsSumToRecordCount(req: Request, env: Environment)
    requires Readable(env) && AnalyzeNutrition(req, env).status == 200
    requires AnalyzeNutrition(req, env).payload.insights.filter != AllDiets
    ensures Sum(AnalyzeNutrition(req, env).payload.insights.distribution.counts)
         == AnalyzeNutrition(req, env).payload.insights.recordCount
  {
    CountsDescribeSelection(req, env);
    SelectionFiltersByDiet(req, env);
    var sel := Select(req, env).value;
    var df := StripHeaders(env.dataset.value);
    assert DietIndex(sel.frame) == DietIndex(df);
    MatchedCellsPresent(sel.frame, sel.filter);
    FullColumnSum(AnalyzeNutrition(req, env).payload.insights.distribution, DietCells(sel.frame));
  }

  /** Rows that all match a filter have no NaN Diet_type. */
  lemma MatchedCellsPresent(f: Frame, filter: string)
    requires Aligned(f) && DietType in f.columns
    requires forall i :: 0 <= i < |f.rows| ==> DietMatches(f.rows[i][DietIndex(f)], filter)
    ensures forall c :: c in DietCells(f) ==> c.Some?
  {
  }

  /** Keeping some of the rows of a frame keeps every Diet_type present. */
  lemma SubRowsTyped(f: Frame, g: Frame)
    requires DietTyped(f) && Aligned(g) && g.columns == f.columns
    requires multiset(g.rows) <= multiset(f.rows)
    ensures DietTyped(g)
  {
    forall i | 0 <= i < |g.rows| ensures g.rows[i][DietIndex(g)].Some? {
      assert g.rows[i] in multiset(f.rows);
      var r :| 0 <= r < |f.rows| && f.rows[r] == g.rows[i];
    }
  }

  /** A faithful count of a column without NaN counts every cell. */
  lemma FullColumnSum(d: Distribution, cells: seq<Option<Cell>>)
    requires CountsColumn(d, cells) && forall c :: c in cells ==> c.Some?
    ensures Sum(d.counts) == |cells|
  {
    assert None !in cells;
  }

  /** Line 134 with line 60: under any filter but `'all'`, every diet type in
      the distribution is text equal to the filter ignoring case. */
  lemma DistributionMatchesFilter(req: Request, env: Environment)
    requires Readable(env) && AnalyzeNutrition(req, env).status == 200
    requires AnalyzeNutrition(req, env).payload.insights.filter != AllDiets
    ensures var ins := AnalyzeNutrition(req, env).payload.insights;
            forall c :: c in ins.distribution.labels ==>
              c.TextCell? && Lower(c.text) == Lower(ins.filter)
  {
    CountsDescribeSelection(req, env);
    SelectionFiltersByDiet(req, env);
    var sel := Select(req, env).value;
    var ins := AnalyzeNutrition(req, env).payload.insights;
    assert DietIndex(sel.frame) == DietIndex(StripHeaders(env.dataset.value));
    CountedTypesMatch(sel.frame, sel.filter, ins.distribution);
  }

  /** When every row's Diet_type matches the filter, so does every diet type
      a faithful count of that column lists. */
  lemma CountedTypesMatch(f: Frame, filter: string, d: Distribution)
    requires Aligned(f) && DietType in f.columns
    requires forall i :: 0 <= i < |f.rows| ==> DietMatches(f.rows[i][DietIndex(f)], filter)
    requires CountsColumn(d, DietCells(f))
    ensures forall c :: c in d.labels ==> c.TextCell? && Lower(c.text) == Lower(filter)
  {
    var cells := DietCells(f);
    forall c | c in d.labels
      ensures c.TextCell? && Lower(c.text) == Lower(filter)
    {
      assert Some(c) in cells;
      var r :| 0 <= r < |cells| && cells[r] == Some(c);
      assert DietMatches(f.rows[r][DietIndex(f)], filter);
    }
  }

  /** Lines 98-119: the scatter list is empty unless both the protein and the
      carbs column exist, and never longer than min(100, recordCount); the
      protein/carbs correlation is reported under the same condition. */
  lemma ScatterIsBoundedSample(req: Request, env: Environment)
    requires Readable(env) && AnalyzeNutrition(req, env).status == 200
    ensures var ins := AnalyzeNutrition(req, env).payload.insights;
            && |ins.scatterData| <= SampleSize(ins.recordCount) <= SampleCap
            && ((MacroName(Protein) !in ins.availableColumns || MacroName(Carbs) !in ins.availableColumns)
                  ==> ins.scatterData == [] && ins.correlations == [])
            && ((MacroName(Protein) in ins.availableColumns && MacroName(Carbs) in ins.availableColumns)
                  ==> |ins.correlations| == 1 && ins.correlations[0].pair == ProteinCarbs)
  {
    OkCase(req, env);
    var sel := Select(req, env).value;
    ScatterDataSpec(WithMacros(sel.frame), env.draw);
  }

  /** Lines 129-131: a macronutrient list is empty when its canonical column
      is unavailable, and otherwise holds one mean per diet type of
      `dietTypes`, so it is empty too when no selected row has a diet type. */
  lemma MacroListsFollowColumns(req: Request, env: Environment, m: Macro)
    requires Readable(env) && AnalyzeNutrition(req, env).status == 200
    ensures var ins := AnalyzeNutrition(req, env).payload.insights;
            var list := match m
              case Protein => ins.macronutrients.protein
              case Carbs => ins.macronutrients.carbs
              case Fat => ins.macronutrients.fat;
            && (MacroName(m) !in ins.availableColumns ==> list == [])
            && (MacroName(m) in ins.availableColumns ==>
                  |list| == |ins.macronutrients.dietTypes| &&
                  forall i :: 0 <= i < |list| ==>
                    list[i].dietType == ins.macronutrients.dietTypes[i] && list[i].column == MacroName(m))
  {
    OkCase(req, env);
  }

  /** Lines 115-119: with both columns available the one coefficient is a
      number exactly when the protein values and the carbs values each vary
      over the rows that have both. */
  lemma CorrelationNeedsSpread(req: Request, env: Environment)
    requires Readable(env) && AnalyzeNutrition(req, env).status == 200
    requires var ins := AnalyzeNutrition(req, env).payload.insights;
             MacroName(Protein) in ins.availableColumns && MacroName(Carbs) in ins.availableColumns
    ensures var ins := AnalyzeNutrition(req, env).payload.insights;
            var df := WithMacros(Select(req, env).value.frame);
            var pc := Find(df.columns, MacroName(Protein)).value;
            var cc := Find(df.columns, MacroName(Carbs)).value;
            && |ins.correlations| == 1 && ins.correlations[0].pair == ProteinCarbs
            && (ins.correlations[0].value == Finite <==> Varies(df, pc, cc, pc) && Varies(df, pc, cc, cc))
  {
    OkCase(req, env);
  }

  /** A selection of a single recipe with both columns available answers 200
      with a NaN coefficient: a single row has no spread. */
  lemma SingleRecipeCorrelationIsNaN(req: Request, env: Environment)
    requires Readable(env) && AnalyzeNutrition(req, env).status == 200
    requires var ins := AnalyzeNutrition(req, env).payload.insights;
             ins.recordCount == 1
             && MacroName(Protein) in ins.availableColumns && MacroName(Carbs) in ins.availableColumns
    ensures AnalyzeNutrition(req, env).payload.insights.correlations == [Coefficient(ProteinCarbs, NaN)]
    ensures !StrictJson(AnalyzeNutrition(req, env).payload)
  {
    OkCase(req, env);
    var df := WithMacros(Select(req, env).value.frame);
    OneRowCorrelationIsNaN(df, Find(df.columns, MacroName(Protein)).value, Find(df.columns, MacroName(Carbs)).value);
    var ins := AnalyzeNutrition(req, env).payload.insights;
    assert ins.correlations[0] in ins.correlations;
  }

  /** A one-recipe dataset with a Diet_type and a `Protein(g)` column, and a
      GET request without a filter. */
  const ExampleFrame := Frame([DietType, MacroName(Protein)], [[Some(TextCell("vegan")), Some(NumberCell(20.0))]])
  const ExampleEnv := Environment(Some("UseDevelopmentStorage=true"), Ok(ExampleFrame), [0])
  const ExampleRequest := Request(map[], NotJson)

  /** The example request selects every row under `'all'`. */
  lemma ExampleSelection()
    ensures Readable(ExampleEnv)
    ensures Select(ExampleRequest, ExampleEnv) == Ok(Selection(AllDiets, ExampleFrame))
  {
    assert LeadingSpace(DietType) == 0 && Strip(DietType) == DietType;
    assert LeadingSpace(MacroName(Protein)) == 0 && Strip(MacroName(Protein)) == MacroName(Protein);
    assert StripHeaders(ExampleFrame) == ExampleFrame;
  }

  /** The example gets a 200 response for `'all'` counting its one recipe;
      without a carbs column there are no scatter points. */
  lemma OneRecipeExample()
    ensures Readable(ExampleEnv)
    ensures var resp := AnalyzeNutrition(ExampleRequest, ExampleEnv);
      && resp.status == 200
      && resp.payload.insights.filter == AllDiets
      && resp.payload.insights.recordCount == 1
      && resp.payload.insights.distribution == Distribution([TextCell("vegan")], [1])
      && resp.payload.insights.scatterData == []
      && StrictJson(resp.payload)
  {
    ExampleSelection();
    assert WithMacros(ExampleFrame) == ExampleFrame;
    assert Find(ExampleFrame.columns, MacroName(Carbs)).None?;
    assert ScatterData(ExampleFrame, [0]) == Ok([]);
    assert ColumnAt(ExampleFrame, DietIndex(ExampleFrame)) == [Some(TextCell("vegan"))];
    assert Tally([Some(TextCell("vegan"))]) == Distribution([TextCell("vegan")], [1]);
    assert NumberFor(ExampleFrame, TextCell("vegan"), 1, 0);
  }

  /** A one-recipe dataset with a protein value but a NaN diet type. */
  const NoDietFrame := Frame([DietType, MacroName(Protein)], [[None, Some(NumberCell(20.0))]])
  const NoDietEnv := Environment(Some("UseDevelopmentStorage=true"), Ok(NoDietFrame), [0])

  /** `groupby` forms no group without a diet type, so the 200 for `'all'`
      carries an empty protein list although `Protein(g)` is available. */
  lemma NoDietTypeExample()
    ensures Readable(NoDietEnv)
    ensures var resp := AnalyzeNutrition(ExampleRequest, NoDietEnv);
      && resp.status == 200
      && MacroName(Protein) in resp.payload.insights.availableColumns
      && resp.payload.insights.macronutrients.dietTypes == []
      && resp.payload.insights.macronutrients.protein == []
  {
    NoDietSelection();
    assert WithMacros(NoDietFrame) == NoDietFrame;
    assert Find(NoDietFrame.columns, MacroName(Carbs)).None?;
    assert ColumnAt(NoDietFrame, DietIndex(NoDietFrame)) == [None];
    assert Tally([None]) == Distribution([], []);
  }

  lemma NoDietSelection()
    ensures Readable(NoDietEnv)
    ensures Select(ExampleRequest, NoDietEnv) == Ok(Selection(AllDiets, NoDietFrame))
  {
    assert LeadingSpace(DietType) == 0 && Strip(DietType) == DietType;
    assert LeadingSpace(MacroName(Protein)) == 0 && Strip(MacroName(Protein)) == MacroName(Protein);
    assert StripHeaders(NoDietFrame) == NoDietFrame;
  }

  /** A dataset whose only Diet_type value is a number, asked for `vegan`. */
  const NumericDietFrame := Frame([DietType], [[Some(NumberCell(1.0))]])
  const NumericDietEnv := Environment(Some("UseDevelopmentStorage=true"), Ok(NumericDietFrame), [])
  const VeganRequest := Request(map[DietParam := "vegan"], NotJson)

  /** That request fails at `.str` with 500 rather than finding no vegan
      rows. */
  lemma NumericDietExample()
    ensures Readable(NumericDietEnv)
    ensures AnalyzeNutrition(VeganRequest, NumericDietEnv)
         == HttpResponse(500, ErrorPayload(StrAccessorText, Some(ProcessFailure)), AllowOrigin)
  {
    assert LeadingSpace(DietType) == 0 && Strip(DietType) == DietType;
    assert StripHeaders(NumericDietFrame) == NumericDietFrame;
    assert !IsText(NumericDietFrame.rows[0][DietIndex(NumericDietFrame)]);
    NoTextDietFails(VeganRequest, NumericDietEnv);
  }

  /** One recipe with both a protein and a carbs value, asked for `all`. */
  const PairFrame := Frame([DietType, MacroName(Protein), MacroName(Carbs)],
    [[Some(TextCell("vegan")), Some(NumberCell(20.0)), Some(NumberCell(30.0))]])
  const PairEnv := Environment(Some("UseDevelopmentStorage=true"), Ok(PairFrame), [0])
  const AllRequest := Request(map[DietParam := AllDiets], NotJson)

  /** The one-recipe selection answers 200, but its coefficient is NaN, so
      its body is not strict JSON. */
  lemma OneCompleteRecipeExample()
    ensures Readable(PairEnv)
    ensures var resp := AnalyzeNutrition(AllRequest, PairEnv);
      && resp.status == 200
      && resp.payload.insights.correlations == [Coefficient(ProteinCarbs, NaN)]
      && !StrictJson(resp.payload)
  {
    PairSelection();
    PairScatter();
    assert WithMacros(PairFrame) == PairFrame;
    SingleRecipeCorrelationIsNaN(AllRequest, PairEnv);
  }

  lemma PairSelection()
    ensures Readable(PairEnv)
    ensures Select(AllRequest, PairEnv) == Ok(Selection(AllDiets, PairFrame))
  {
    assert LeadingSpace(DietType) == 0 && Strip(DietType) == DietType;
    assert LeadingSpace(MacroName(Protein)) == 0 && Strip(MacroName(Protein)) == MacroName(Protein);
    assert LeadingSpace(MacroName(Carbs)) == 0 && Strip(MacroName(Carbs)) == MacroName(Carbs);
    assert StripHeaders(PairFrame) == PairFrame;
  }

  /** The draw samples the one row, whose two numbers convert. */
  lemma PairScatter()
    ensures ScatterData(PairFrame, [0]).Ok?
  {
    assert Find(PairFrame.columns, MacroName(Protein)) == Some(1);
    assert Find(PairFrame.columns, MacroName(Carbs)) == Some(2);
    assert DrawSample([0], 1) == [0];
    assert !Unconvertible(PairFrame, 1, 2, 0);
  }
}

=== FILE: js.dfy ===
/** The JavaScript values the dashboard reads from a parsed JSON response, with
    JavaScript's truthiness, property reads and the `a || b` default idiom. */
module Js {

  /** A value as `response.json()` and the page scripts see it. `Num` holds a
      finite number; NaN does not arise from parsed JSON. */
  datatype JsValue =
    | Undefined
    | Null
    | Bool(b: bool)
    | Num(n: real)
    | Str(s: string)
    | Arr(items: seq<JsValue>)
    | Obj(props: map<string, JsValue>)

  /** JavaScript's `!!v`. */
  predicate Truthy(v: JsValue) {
    match v
    case Undefined => false
    case Null => false
    case Bool(b) => b
    case Num(n) => n != 0.0
    case Str(s) => s != ""
    case Arr(_) => true
    case Obj(_) => true
  }

  /** Reading a property does not throw: the value is neither null nor undefined. */
  predicate Readable(v: JsValue) {
    !v.Undefined? && !v.Null?
  }

  /** `v.key` for one of the data keys the dashboard reads; only objects carry
      them (no string, number, boolean or array has a property of those names
      except `filter` on arrays, which the dashboard only reads on a response
      whose `success` it has already found truthy, and arrays have no
      `success`). */
  function Get(v: JsValue, key: string): JsValue
    requires Readable(v)
  {
    match v
    case Obj(props) => if key in props then props[key] else Undefined
    case _ => Undefined
  }

  /** `a || b`. */
  function Or(a: JsValue, b: JsValue): JsValue {
    if Truthy(a) then a else b
  }

  const EmptyArray := Arr([])
}

=== FILE: maybe.dfy ===
/** Failure-carrying datatypes shared by every module of the model. */
module Maybe {

  /** A value that may be absent: a missing key, a null handle, a NaN cell. */
  datatype Option<T> = None | Some(value: T)

  /** The outcome of a step that may raise; `Err` carries the exception's text. */
  datatype Result<T> = Ok(value: T) | Err(message: string)
}

=== FILE: text.dfy ===
/** Character-level text operations the dashboard and its backend rely on:
    ASCII case mapping (Python's `str.lower`, JavaScript's `toUpperCase`),
    Python's `str.strip`, substring search (`in` / `indexOf`) and JavaScript's
    `String.prototype.replace` with a string pattern. */
module Text {
  import opened Maybe

  function LowerChar(c: char): char {
    if 'A' <= c <= 'Z' then (c as int + 32) as char else c
  }

  function UpperChar(c: char): char {
    if 'a' <= c <= 'z' then (c as int - 32) as char else c
  }

  /** ASCII lower-casing, character by character. */
  function Lower(s: string): string {
    seq(|s|, i requires 0 <= i < |s| => LowerChar(s[i]))
  }

  /** Lower-casing twice is lower-casing once, so comparing lower-cased
      strings is an equivalence that ignores ASCII case. */
  lemma LowerIdempotent(s: string)
    ensures Lower(Lower(s)) == Lower(s)
    ensures forall i :: 0 <= i < |s| ==> !('A' <= Lower(s)[i] <= 'Z')
  {
  }

  /** The whitespace Python's `str.strip()` removes, restricted to code points
      below 256: TAB, LF, VT, FF, CR, the separators 0x1C-0x1F, SPACE, NEL and NBSP. */
  predicate IsSpace(c: char) {
    (9 <= c as int <= 13) || (28 <= c as int <= 32) || c as int == 0x85 || c as int == 0xA0
  }

  /** How many leading characters `Strip` removes: the whitespace run that
      starts `s`. */
  function LeadingSpace(s: string): (n: nat)
    ensures n <= |s|
    ensures forall i :: 0 <= i < n ==> IsSpace(s[i])
    ensures n < |s| ==> !IsSpace(s[n])
  {
    if |s| > 0 && IsSpace(s[0]) then 1 + LeadingSpace(s[1..]) else 0
  }

  /** Where the text of `s` ends once trailing whitespace is cut, never
      cutting below `lo`. */
  function TextEnd(s: string, lo: nat): (n: nat)
    requires lo <= |s|
    ensures lo <= n <= |s|
    ensures forall i :: n <= i < |s| ==> IsSpace(s[i])
    ensures n > lo ==> !IsSpace(s[n - 1])
  {
    if |s| > lo && IsSpace(s[|s| - 1]) then TextEnd(s[..|s| - 1], lo) else |s|
  }

  /** Python's `str.strip()`: the longest infix of `s` that neither starts nor
      ends with whitespace, everything cut away being whitespace. */
  function Strip(s: string): (r: string)
    ensures LeadingSpace(s) + |r| <= |s|
    ensures r == s[LeadingSpace(s)..LeadingSpace(s) + |r|]
    ensures forall i :: 0 <= i < LeadingSpace(s) ==> IsSpace(s[i])
    ensures forall i :: LeadingSpace(s) + |r| <= i < |s| ==> IsSpace(s[i])
    ensures |r| > 0 ==> !IsSpace(r[0]) && !IsSpace(r[|r| - 1])
  {
    var a := LeadingSpace(s);
    s[a..TextEnd(s, a)]
  }

  /** `pat` occurs in `s` starting at position `j`. */
  predicate OccursAt(s: string, pat: string, j: int) {
    0 <= j && j + |pat| <= |s| && s[j..j + |pat|] == pat
  }

  /** The first position at or after `from` where `pat` occurs. */
  function IndexOfFrom(s: string, pat: string, from: nat): (r: Option<nat>)
    requires from <= |s|
    decreases |s| - from
    ensures r.Some? ==> from <= r.value && OccursAt(s, pat, r.value)
    ensures r.Some? ==> forall j :: from <= j < r.value ==> !OccursAt(s, pat, j)
    ensures r.None? ==> forall j :: from <= j ==> !OccursAt(s, pat, j)
  {
    if from + |pat| > |s| then None
    else if s[from..from + |pat|] == pat then Some(from)
    else if from == |s| then None
    else IndexOfFrom(s, pat, from + 1)
  }

  /** The first occurrence of `pat` in `s`, as JavaScript's `indexOf`. */
  function IndexOf(s: string, pat: string): Option<nat> {
    IndexOfFrom(s, pat, 0)
  }

  /** Python's `pat in s`. */
  predicate Contains(s: string, pat: string) {
    IndexOf(s, pat).Some?
  }

  lemma ContainsIffOccurs(s: string, pat: string)
    ensures Contains(s, pat) <==> exists j :: OccursAt(s, pat, j)
  {
  }

  /** JavaScript's `s.replace(pat, rep)` with a string pattern: only the first
      occurrence is replaced, and `s` is returned unchanged without one. */
  function ReplaceFirst(s: string, pat: string, rep: string): string {
    match IndexOf(s, pat)
    case None => s
    case Some(i) => s[..i] + rep + s[i + |pat|..]
  }

  /** When the first occurrence of `pat` in `a + pat + b` is the one right after
      `a`, replacing the first occurrence swaps exactly that copy for `rep`. */
  lemma ReplaceFirstAt(a: string, pat: string, b: string, rep: string)
    requires forall j :: 0 <= j < |a| ==> !OccursAt(a + pat + b, pat, j)
    ensures ReplaceFirst(a + pat + b, pat, rep) == a + rep + b
  {
    var s := a + pat + b;
    assert s[|a|..|a| + |pat|] == pat;
    assert OccursAt(s, pat, |a|);
    var r := IndexOf(s, pat);
    assert r == Some(|a|);
    assert s[..|a|] == a;
    assert s[|a| + |pat|..] == b;
  }

  /** A pattern of at least two characters, whose second character is not in
      `a` and differs from its first, cannot start inside `a` in `a + pat + b`. */
  lemma NoOccurrenceBefore(a: string, pat: string, b: string)
    requires |pat| >= 2 && pat[1] !in a && pat[0] != pat[1]
    ensures forall j :: 0 <= j < |a| ==> !OccursAt(a + pat + b, pat, j)
  {
    var s := a + pat + b;
    forall j | 0 <= j < |a|
      ensures !OccursAt(s, pat, j)
    {
      if j + |pat| <= |s| {
        if j + 1 < |a| {
          assert s[j + 1] == a[j + 1];
        } else {
          assert s[j + 1] == pat[0];
        }
        assert s[j..j + |pat|][1] != pat[1];
      }
    }
  }

  /** JavaScript's `s.charAt(0).toUpperCase() + s.slice(1)`, ASCII only. */
  function Capitalize(s: string): string {
    if |s| == 0 then "" else [UpperChar(s[0])] + s[1..]
  }
}
